=== FILE: README.md ===
# dtool-info: comparison, verification and report logic in Dafny

This project models the decision and aggregation logic of the `dtool-info`
commands, which inspect dtool datasets. A dataset is a frozen collection of
items. Each item has an identifier derived from its relative path, and a
manifest records each item's size, hash and timestamp. The modelled
commands are these:

- `diff` compares a dataset with a reference dataset in three gated stages:
  identifiers, then sizes, then (with `--full`) content hashes. The first
  stage that finds a difference ends the run with exit code 1, 2 or 3.
  Exit code 0 means identical. The stages form a small state machine
  (`StagedDiff.Transition`, `StagedDiff.Run`). The three comparison
  primitives of the storage library are parameters. Reference versions
  that follow the command's documentation are supplied.
- `verify` compares a dataset's persisted manifest with a manifest
  regenerated from its storage. It reports unknown items (only in the
  regenerated manifest) and missing items (only in the persisted one). With
  `--full` it also reports altered items: shared items whose hashes differ.
  The check fails when anything is reported. Python sets are iterated in an
  unspecified order, so the `Verification.Verify` method picks elements with
  `:|`, and its contract holds for every order.
- `summary` reports a dataset's item count and total size.
- `report` gathers information about every frozen dataset under a base URI
  and sums sizes and item counts. Proto-datasets are skipped. It then prints
  one line per dataset, sorted by (creator, date, name), followed by a
  summary line. Column widths come from the longest creator name and the
  longest item count.

Modules:

- `Wrappers` is `Result`.
- `Manifests` holds items, manifests, datasets and the size sum.
- `DatasetSummary` is the `summary` command.
- `StagedDiff` is the `diff` command.
- `Verification` is the `verify` command.
- `CollectionReport` holds the per-dataset information and the base-URI
  totals.
- `ReportOrder` holds the sort.
- `CommandLineReport` holds the widths and the printed lines.
- `Decimal` is `str` of a natural number.
- `TextFormat` is the width field of `str.format`.
- `Lexicographic` is Python's ordering of strings and of tuples of strings.
- `DatasetScenarios` and `ReportScenario` are concrete runs.

Some storage calls can fail on input the storage layer never produces. For
example, asking for the properties of an identifier that is not in the
manifest raises an exception in the storage library. The model returns
`Failure(NoSuchItem(id))` in that case, and lemmas show it cannot happen
when a dataset's identifiers enumerate its manifest
(`Manifests.Enumerates`). The command-line report on a collection with no
frozen datasets fails with `EmptyMax`, because `max` of an empty list
raises.

The `verify` code does not compare item sizes; it compares identifiers,
and hashes under `--full`. A size check in `verify` would be a separate
"altered size" category. The model follows the code and has no such
category.

## Model

| member | source | states |
|---|---|---|
| `StagedDiff.Diff` | dtool_info/dataset.py:38-90 | A non-empty identifier diff ends the run with IdentifiersDiffer, reports those records, and evaluates no other stage. A non-empty size diff after empty identifiers gives SizesDiffer and never evaluates content. Without `full` the content stage never runs. ContentDiffers happens iff `full` holds, the identifier and size diffs are empty, and the content diff is not. Identical happens iff every evaluated stage is empty. Records are reported iff the exit code is non-zero. Stages run in order from the identifier stage, and every stage before the last evaluated one found nothing. A run that reports nothing evaluated the identifier and size stages, and the content stage too under `full`. |
| `StagedDiff.Transition` | dtool_info/dataset.py:69-90 | A transition that continues the comparison happens only after an empty stage, and always moves to the next stage. |
| `StagedDiff.Run` | dtool_info/dataset.py:69-90 | The stages run in order from the given one, each one step later than the last. Every stage before the last found no difference. The last stage's differences are the ones reported, and the run is Identical iff it reports none. |
| `StagedDiff.ExitCodeIdentifiesOutcome` | dtool_info/dataset.py:73-90 | Exit codes lie in 0..3. Only Identical exits with 0, and distinct outcomes have distinct codes. |
| `StagedDiff.DiffIdentifiers` | dtool_info/dataset.py:41-45 | The records are exactly the identifiers present on one side only, flagged present/absent accordingly. The list is empty iff both datasets list the same identifiers. |
| `StagedDiff.DiffSizes` | dtool_info/dataset.py:42-46 | The records are exactly the shared items whose sizes differ, each carrying both sizes. The list is empty iff all shared sizes agree. |
| `StagedDiff.DiffContent` | dtool_info/dataset.py:43-51 | The records are exactly the items whose content, hashed with the reference's algorithm, differs from the reference's recorded hash. The list is empty iff none does. |
| `StagedDiff.DiffIsReflexive` | dtool_info/dataset.py:38-51 | A dataset whose identifiers enumerate its manifest, diffed against itself, is Identical, with or without `full`, whenever rehashing its items reproduces their recorded hashes. |
| `StagedDiff.DiffIgnoresEnumerationOrder` | dtool_info/dataset.py:69-90 | Enumerating either dataset's identifiers in another order changes neither the outcome nor the set of reported records. |
| `Verification.Verify` | dtool_info/dataset.py:220-263 | The printed unknown, missing and altered identifiers are exactly the classified sets. Each message carries the relative path from the right manifest. No message repeats. Unknown messages come before missing ones, which come before altered ones. The run ends "all okay" iff the findings are all empty, iff no Unknown, Missing or Altered message was printed, and the exit status is 0 exactly then. |
| `Verification.ReportUnknown` | dtool_info/dataset.py:229-238 | One "Unknown item" message per identifier in the regenerated manifest but not the persisted one, with the regenerated relative path. |
| `Verification.ReportMissing` | dtool_info/dataset.py:240-246 | One "Missing item" message per identifier in the persisted manifest but not the regenerated one, with the persisted relative path. |
| `Verification.ReportAltered` | dtool_info/dataset.py:248-258 | One "Altered item" message per shared identifier whose hashes differ, with the persisted relative path. |
| `Verification.Classify` | dtool_info/dataset.py:229-258 | No identifier is both unknown and missing. Together they are exactly the identifiers found in only one of the two manifests. Only identifiers in both manifests can be altered, and nothing is altered without `full`. |
| `Verification.FindingsPartition` | dtool_info/dataset.py:229-258 | No item falls in two categories: altered items are neither unknown nor missing. |
| `Verification.AlteredIffHashDiffers` | dtool_info/dataset.py:248-252 | A shared identifier is altered iff `full` holds and its two hashes differ, so nothing is altered without `full`. |
| `Verification.FullCheckIsStricter` | dtool_info/dataset.py:232-258 | Unknown and missing do not depend on `full`. A quick check reports no altered items. A quick failure implies a full failure. |
| `DatasetSummary.Summarize` | dtool_info/dataset.py:140-158 | The summary exists iff every enumerated identifier has recorded properties. Its item count is the number of identifiers, and name, uuid, creator and freeze time come from the admin metadata. |
| `DatasetSummary.SummaryOfConsistentDataset` | dtool_info/dataset.py:147-149 | For a consistent dataset the summary counts each manifest entry once and reports the manifest's total item size. |
| `Manifests.SizeSum` | dtool_info/report.py:39-40 | The size sum succeeds iff every listed identifier is in the manifest. A failure names an identifier that is listed and absent. |
| `Manifests.SizeSumIsKeysSize` | dtool_info/dataset.py:148-149 | Summing sizes along an enumeration without repeats equals the order-free sum over the enumerated identifiers. |
| `Manifests.ConsistentDatasetTotals` | dtool_info/dataset.py:147-149 | For identifiers that enumerate the manifest, the size sum is the manifest's total size and the identifier count is the manifest's size. |
| `Manifests.SizeSumOrderIndependent` | dtool_info/report.py:39-40 | Two enumerations of the same manifest give the same size sum. |
| `CollectionReport.DatasetInfoOf` | dtool_info/report.py:31-53 | The dataset information exists iff every identifier has properties. `num_items` is the identifier count and `size_str` renders `size_int`. Creator, name, date, uri and uuid come from the dataset. |
| `CollectionReport.DatasetInfoTotals` | dtool_info/report.py:39-49 | For a consistent dataset, `size_int` is the total item size and `num_items` is the number of manifest entries. |
| `CollectionReport.Frozen` | dtool_info/report.py:56-71 | The datasets kept are exactly those of the listing whose admin type is "dataset". |
| `CollectionReport.BaseUriInfo` | dtool_info/report.py:61-81 | The result succeeds iff every frozen dataset's information can be built. The datasets are the frozen ones' information, in listing order, with proto-datasets skipped. The totals are the sums of `size_int` and of `num_items` over them. `num_datasets` is their number, and `total_size_str` renders the total. |
| `CommandLineReport.MaxOf` | dtool_info/report.py:85-90 | The maximum of a non-empty list is one of its elements and no element exceeds it. |
| `CommandLineReport.LineFormats` | dtool_info/report.py:84-102 | An empty dataset list fails. Otherwise the creator width is the longest creator name, the item-count width is the longest decimal item count, and the total offset is their sum plus 1. |
| `CommandLineReport.DatasetLine` | dtool_info/report.py:92-118 | A dataset line is the five fields joined by four spaces. Padding only widens the creator and item-count fields and never truncates them. The line starts with the size string and ends with the name. |
| `CommandLineReport.SummaryLine` | dtool_info/report.py:102-121 | The summary line is the total size string, one space, and the item total padded on the left to `total_items_offset`. The padding never truncates the total. |
| `CommandLineReport.DatasetLineColumns` | dtool_info/report.py:92-100 | In a dataset line the creator starts after the size and one space. The item count ends `creatorWidth + numItemsWidth + 2` characters after the size. Date and name follow after one more space. |
| `CommandLineReport.SummaryLineAligned` | dtool_info/report.py:102-107 | When the item total fits its field, the summary line ends in the column where the dataset lines' item counts end. |
| `CommandLineReport.CmdLineReport` | dtool_info/report.py:111-121 | The report fails on an empty collection. Otherwise it prints one line per dataset plus a summary line (`num_datasets` + 1 lines). The dataset lines follow an order that is sorted by (creator, date, name), is a permutation of the datasets, and is stable. |
| `ReportOrder.SortByKeyIsStableSort` | dtool_info/report.py:114-117 | The sort's output is ordered by the key, and every key's subsequence is unchanged (stability). |
| `ReportOrder.SortByKey` | dtool_info/report.py:114-117 | The sorted list is a permutation of the input. |
| `ReportOrder.StableSortIsUnique` | dtool_info/report.py:114-117 | Any sorted, stable rearrangement of the datasets equals the model's sort, so the model agrees with Python's stable `sorted`. |
| `Lexicographic.KeyLeTotalOrder` | dtool_info/report.py:114-117 | Python's ordering of (creator, date, name) tuples is reflexive, total, antisymmetric and transitive. |
| `Decimal.Show` | dtool_info/report.py:88-90 | `str` of a natural number is non-empty and has no leading zero. |
| `Decimal.ShowDigits` | dtool_info/report.py:88-90 | Every character of `str(n)` is a decimal digit. |
| `Decimal.ParseShow` | dtool_info/report.py:88-90 | Reading back the decimal form of `n` gives `n`. |
| `Decimal.ShowLength` | dtool_info/report.py:88-90 | The length of `str(n)` is the digit count: `n < 10^len`, and `10^(len-1) <= n` past one digit. |
| `TextFormat.PadRight` | dtool_info/report.py:94 | `{creator:w}` has length max(len, w) and starts with the creator. |
| `TextFormat.PadLeft` | dtool_info/report.py:95-105 | `{num_items:w}` and `{total_items:w}` have length max(len, w) and end with the number. |
| `ReportScenario.ScenarioTotals` | tests/test_report_command.py:16-20 | For the test collection, 19 + 11 = 30 bytes and 3 + 2 = 5 items. |
| `ReportScenario.ScenarioOrder` | tests/test_report_command.py:17-18 | `big_cats` sorts before `toys`. |
| `ReportScenario.ScenarioLines` | tests/test_report_command.py:16-23 | The report prints exactly the test's expected lines, once stripped. |
| `DatasetScenarios.DiffReportsExtraReferenceItem` | dtool_info/dataset.py:69-73 | An item only in the reference stops the diff at stage 1 with exit 1 and one record. |
| `DatasetScenarios.DiffReportsSizeMismatch` | dtool_info/dataset.py:75-81 | One size mismatch stops the diff at stage 2 with exit 2 and one record. |
| `DatasetScenarios.DiffReportsContentMismatch` | dtool_info/dataset.py:83-90 | One hash mismatch under `--full` gives exit 3 and one record. |
| `DatasetScenarios.VerifyReportsMissingAndUnknown` | dtool_info/dataset.py:229-246 | A persisted {a, b} against a regenerated {a, c} gives missing {b}, unknown {c}, and a failure. |
| `DatasetScenarios.VerifyHashChangeNeedsFull` | dtool_info/dataset.py:248-263 | A changed hash fails a full check and passes a quick one. |

## Left out

- Opening datasets by URI, storage brokers, listing dataset URIs, reading
  admin metadata, regenerating a manifest and hashing item content all
  belong to the dtoolcore library, whose code is not part of this model.
  They become inputs: `Dataset` values, a listing `seq<Dataset>`, a
  regenerated `Manifest`, and the `rehash` function.
- The bodies of `diff_identifiers`, `diff_sizes` and `diff_content` live in
  dtoolcore. `StagedDiff.Diff` takes them as parameters. The `DiffIdentifiers`,
  `DiffSizes` and `DiffContent` reference versions follow only the
  command's documentation, and the order of their records is the model's
  own choice.
- StagedDiff.DiffContent skips an identifier missing from the reference's
  manifest where the library's `item_properties` would raise. It only runs
  after the identifier and size stages found nothing.
- Verification.Verify takes the dataset's identifiers
  (`set(dataset.identifiers)`, dtool_info/dataset.py:230) to be the keys of
  its persisted manifest. Each "Missing" and "Altered" message then finds its
  relative path in that manifest, where `item_properties` would otherwise
  raise.
- The "All good :)" line `verify` prints on success
  (dtool_info/dataset.py:262-263) is not part of `VerifyReport`. Success is
  the `allOkay` result and exit status 0.
- CommandLineReport.DatasetLine pads the creator to the longest creator
  name even when that length is 0. Before Python 3.10 the template
  `{creator:0}` built at dtool_info/report.py:94 reads the leading `0` as
  the zero-fill flag, and formatting a string with it raises ValueError at
  dtool_info/report.py:118. The model follows Python 3.10 and later, where
  a collection whose creators are all empty strings still gets a report.
- StagedDiff.DiffSizes skips an identifier missing from either manifest
  where the library would raise. It only runs after the identifier stage
  found the identifier sets equal.
- `_sizeof_fmt` (dtool_info/report.py:17-22) uses float division and
  `%6.1f` rounding. `_date_fmt` (dtool_info/report.py:25-28) converts a
  float timestamp in the local time zone. Both become function parameters
  (`sizeFmt`, `dateFmt`), and timestamps are opaque strings.
- `_line_formats` returns the format-string templates themselves. The model
  keeps the widths those templates embed (`LineFormat`) and renders the
  lines directly (`DatasetLine`, `SummaryLine`).
- Terminal output is not modelled: click colouring, the pygments-coloured
  JSON of `summary`, the header and record lines `diff` echoes, progress
  bars, the Jinja2 HTML report (dtool_info/report.py:124-128) and the
  `report` command's argument handling.
- The `ls`, `identifiers`, `item properties` and `item fetch` commands
  (dtool_info/dataset.py:93-209) are not modelled. They only print what the
  storage layer returns.
- dtool_info/overlay.py wraps dtoolcore overlay calls, and setup.py is
  packaging metadata. Neither is modelled.
- The CSV report test (tests/test_report_command.py:38-52) is not modelled:
  `report` accepts only the `html` format, so no code produces CSV.
- `sys.exit` is modelled as the returned outcome and exit code rather
  than as process termination.

=== FILE: cmd_line_report.dfy ===
/** The command-line form of the report: column widths from the longest
    creator name and item count, one line per dataset in key order, then a
    summary line whose item total lines up under the item-count column. */
module CommandLineReport {
  import opened Wrappers
  import opened Manifests
  import opened CollectionReport
  import opened ReportOrder
  import Decimal
  import TextFormat

  /** The largest element of a non-empty list. */
  function MaxOf(xs: seq<nat>): (m: nat)
    requires |xs| > 0
    ensures m in xs
    ensures forall x | x in xs :: x <= m
  {
    if |xs| == 1 then xs[0]
    else
      var rest := MaxOf(xs[1..]);
      assert forall x | x in xs :: x == xs[0] || x in xs[1..];
      if xs[0] < rest then rest else xs[0]
  }

  /** The widths the two line templates embed: the creator column, the
      item-count column, and the width of the item total in the summary. */
  datatype LineFormat = LineFormat(creatorWidth: nat, numItemsWidth: nat, totalItemsOffset: nat)

  /** The column widths for a list of datasets; an empty list has no maximum
      and fails. */
  function LineFormats(datasets: seq<DatasetInfo>): (r: Result<LineFormat, Error>)
    ensures r.Failure? <==> |datasets| == 0
    ensures r.Failure? ==> r.error == EmptyMax
    ensures r.Success? ==>
      && (forall d | d in datasets :: |d.creator| <= r.value.creatorWidth)
      && (exists d | d in datasets :: |d.creator| == r.value.creatorWidth)
      && (forall d | d in datasets :: |Decimal.Show(d.numItems)| <= r.value.numItemsWidth)
      && (exists d | d in datasets :: |Decimal.Show(d.numItems)| == r.value.numItemsWidth)
      && r.value.totalItemsOffset == r.value.creatorWidth + r.value.numItemsWidth + 1
  {
    if |datasets| == 0 then Failure(EmptyMax)
    else
      var creators := seq(|datasets|, i requires 0 <= i < |datasets| => |datasets[i].creator|);
      var counts := seq(|datasets|, i requires 0 <= i < |datasets| => |Decimal.Show(datasets[i].numItems)|);
      var creatorMaxLen := MaxOf(creators);
      var numItemsMaxLen := MaxOf(counts);
      assert forall d | d in datasets :: |d.creator| in creators && |Decimal.Show(d.numItems)| in counts by {
        forall d | d in datasets
          ensures |d.creator| in creators && |Decimal.Show(d.numItems)| in counts
        {
          var i :| 0 <= i < |datasets| && datasets[i] == d;
          assert creators[i] == |d.creator| && counts[i] == |Decimal.Show(d.numItems)|;
        }
      }
      var widest :| 0 <= widest < |creators| && creators[widest] == creatorMaxLen;
      var longest :| 0 <= longest < |counts| && counts[longest] == numItemsMaxLen;
      assert datasets[widest] in datasets && datasets[longest] in datasets;
      Success(LineFormat(creatorMaxLen, numItemsMaxLen, creatorMaxLen + numItemsMaxLen + 1))
  }

  /** The line for one dataset: size, creator padded on the right, item count
      padded on the left, date and name, separated by single spaces. */
  function DatasetLine(lf: LineFormat, d: DatasetInfo): (line: string)
    // Padding only widens the creator and count fields; nothing is cut.
    ensures |line| == |d.sizeStr| + TextFormat.Max(|d.creator|, lf.creatorWidth)
      + TextFormat.Max(|Decimal.Show(d.numItems)|, lf.numItemsWidth) + |d.date| + |d.name| + 4
    ensures line[..|d.sizeStr|] == d.sizeStr
    ensures line[|line| - |d.name|..] == d.name
  {
    d.sizeStr + " " + TextFormat.PadRight(d.creator, lf.creatorWidth)
      + " " + TextFormat.PadLeft(Decimal.Show(d.numItems), lf.numItemsWidth)
      + " " + (d.date + " " + d.name)
  }

  /** The summary line: total size, then the item total padded on the left. */
  function SummaryLine(lf: LineFormat, info: ReportInfo): (line: string)
    ensures |line| == |info.totalSizeStr| + 1 + TextFormat.Max(|Decimal.Show(info.totalItems)|, lf.totalItemsOffset)
    ensures line[..|info.totalSizeStr|] == info.totalSizeStr
    ensures line[|line| - |Decimal.Show(info.totalItems)|..] == Decimal.Show(info.totalItems)
  {
    info.totalSizeStr + " " + TextFormat.PadLeft(Decimal.Show(info.totalItems), lf.totalItemsOffset)
  }

  /** Four fields joined by single spaces: the length of the line, and where
      the first and the last field lie. */
  lemma FieldSlices(a: string, b: string, c: string, t: string)
    ensures var line := a + " " + b + " " + c + " " + t;
      && |line| == |a| + |b| + |c| + |t| + 3
      && line[..|a|] == a
      && line[|a| + |b| + |c| + 3..] == t
  {
    var line := a + " " + b + " " + c + " " + t;
    assert forall i | 0 <= i < |a| :: line[i] == a[i];
    assert forall i | 0 <= i < |t| :: line[|a| + |b| + |c| + 3 + i] == t[i];
  }

  /** Where the second of four space-separated fields lies. */
  lemma SecondField(a: string, b: string, c: string, t: string)
    ensures var line := a + " " + b + " " + c + " " + t;
      line[|a| + 1..|a| + 1 + |b|] == b
  {
    var line := a + " " + b + " " + c + " " + t;
    assert forall i | 0 <= i < |b| :: line[|a| + 1 + i] == b[i];
  }

  /** Where the third of four space-separated fields lies. */
  lemma ThirdField(a: string, b: string, c: string, t: string)
    ensures var line := a + " " + b + " " + c + " " + t;
      line[|a| + |b| + 2..|a| + |b| + 2 + |c|] == c
  {
    var line := a + " " + b + " " + c + " " + t;
    assert forall i | 0 <= i < |c| :: line[|a| + |b| + 2 + i] == c[i];
  }

  /** Fields separated by single spaces: a value at the start of the second
      field and a value at the end of the third field sit at fixed offsets. */
  lemma FieldColumns(size: string, left: string, right: string, tail: string, creator: string, shown: string)
    requires |creator| <= |left| && left[..|creator|] == creator
    requires |shown| <= |right| && right[|right| - |shown|..] == shown
    ensures var line := size + " " + left + " " + right + " " + tail;
      var countEnd := |size| + |left| + |right| + 2;
      && |line| == countEnd + 1 + |tail|
      && line[..|size|] == size
      && line[|size| + 1..|size| + 1 + |creator|] == creator
      && line[countEnd - |shown|..countEnd] == shown
      && line[countEnd + 1..] == tail
  {
    var line := size + " " + left + " " + right + " " + tail;
    var countEnd := |size| + |left| + |right| + 2;
    FieldSlices(size, left, right, tail);
    assert line[|size| + 1..|size| + 1 + |creator|] == creator by {
      SecondField(size, left, right, tail);
      assert line[|size| + 1..|size| + 1 + |creator|] == line[|size| + 1..|size| + 1 + |left|][..|creator|];
    }
    assert line[countEnd - |shown|..countEnd] == shown by {
      ThirdField(size, left, right, tail);
      assert line[countEnd - |shown|..countEnd] == line[countEnd - |right|..countEnd][|right| - |shown|..];
    }
  }

  /** Where the fields of a dataset line lie when its creator and item count
      fit the widths: the size first, then one field per lemma below. */
  lemma DatasetLineStart(lf: LineFormat, d: DatasetInfo)
    requires |d.creator| <= lf.creatorWidth && |Decimal.Show(d.numItems)| <= lf.numItemsWidth
    ensures var line := DatasetLine(lf, d);
      && |line| == |d.sizeStr| + lf.creatorWidth + lf.numItemsWidth + 3 + |d.date| + 1 + |d.name|
      && line[..|d.sizeStr|] == d.sizeStr
  {
    FieldColumns(d.sizeStr, TextFormat.PadRight(d.creator, lf.creatorWidth),
                 TextFormat.PadLeft(Decimal.Show(d.numItems), lf.numItemsWidth),
                 d.date + " " + d.name, d.creator, Decimal.Show(d.numItems));
  }

  lemma DatasetLineCreator(lf: LineFormat, d: DatasetInfo)
    requires |d.creator| <= lf.creatorWidth && |Decimal.Show(d.numItems)| <= lf.numItemsWidth
    ensures DatasetLine(lf, d)[|d.sizeStr| + 1..|d.sizeStr| + 1 + |d.creator|] == d.creator
  {
    FieldColumns(d.sizeStr, TextFormat.PadRight(d.creator, lf.creatorWidth),
                 TextFormat.PadLeft(Decimal.Show(d.numItems), lf.numItemsWidth),
                 d.date + " " + d.name, d.creator, Decimal.Show(d.numItems));
  }

  /** A right-aligned field of width `nw` after a leading field, a space, a
      field of width `cw` and a space ends `cw + nw + 2` past the leading field. */
  lemma RightAlignedColumn(size: string, creator: string, cw: nat, shown: string, nw: nat, tail: string)
    requires |creator| <= cw && |shown| <= nw
    ensures var line := size + " " + TextFormat.PadRight(creator, cw)
                          + " " + TextFormat.PadLeft(shown, nw) + " " + tail;
      var countEnd := |size| + cw + nw + 2;
      line[countEnd - |shown|..countEnd] == shown
  {
    FieldColumns(size, TextFormat.PadRight(creator, cw), TextFormat.PadLeft(shown, nw), tail, creator, shown);
  }

  lemma DatasetLineCount(lf: LineFormat, d: DatasetInfo)
    requires |d.creator| <= lf.creatorWidth && |Decimal.Show(d.numItems)| <= lf.numItemsWidth
    ensures var countEnd := |d.sizeStr| + lf.creatorWidth + lf.numItemsWidth + 2;
      DatasetLine(lf, d)[countEnd - |Decimal.Show(d.numItems)|..countEnd] == Decimal.Show(d.numItems)
  {
    var shown := Decimal.Show(d.numItems);
    RightAlignedColumn(d.sizeStr, d.creator, lf.creatorWidth, shown, lf.numItemsWidth, d.date + " " + d.name);
    assert DatasetLine(lf, d) == d.sizeStr + " " + TextFormat.PadRight(d.creator, lf.creatorWidth)
      + " " + TextFormat.PadLeft(shown, lf.numItemsWidth) + " " + (d.date + " " + d.name);
  }

  lemma DatasetLineTail(lf: LineFormat, d: DatasetInfo)
    requires |d.creator| <= lf.creatorWidth && |Decimal.Show(d.numItems)| <= lf.numItemsWidth
    ensures DatasetLine(lf, d)[|d.sizeStr| + lf.creatorWidth + lf.numItemsWidth + 3..] == d.date + " " + d.name
  {
    FieldColumns(d.sizeStr, TextFormat.PadRight(d.creator, lf.creatorWidth),
                 TextFormat.PadLeft(Decimal.Show(d.numItems), lf.numItemsWidth),
                 d.date + " " + d.name, d.creator, Decimal.Show(d.numItems));
  }

  /** Each dataset line has fixed-width creator and item-count columns: the
      creator starts after the size and a space, the item count ends
      `creatorWidth + numItemsWidth + 2` characters after the size, and the
      date and name follow one space later. Lines whose sizes render to the
      same width therefore align. */
  lemma DatasetLineColumns(datasets: seq<DatasetInfo>, lf: LineFormat, d: DatasetInfo)
    requires LineFormats(datasets) == Success(lf) && d in datasets
    ensures var line := DatasetLine(lf, d);
      var countEnd := |d.sizeStr| + lf.creatorWidth + lf.numItemsWidth + 2;
      && |line| == countEnd + 1 + |d.date| + 1 + |d.name|
      && line[..|d.sizeStr|] == d.sizeStr
      && line[|d.sizeStr| + 1..|d.sizeStr| + 1 + |d.creator|] == d.creator
      && line[countEnd - |Decimal.Show(d.numItems)|..countEnd] == Decimal.Show(d.numItems)
      && line[countEnd + 1..] == d.date + " " + d.name
  {
    assert |d.creator| <= lf.creatorWidth && |Decimal.Show(d.numItems)| <= lf.numItemsWidth;
    DatasetLineStart(lf, d);
    DatasetLineCreator(lf, d);
    DatasetLineCount(lf, d);
    DatasetLineTail(lf, d);
  }

  /** When the item total fits its field, the summary line ends in the
      column where the item counts of the dataset lines end (for equally wide
      size renderings). */
  lemma SummaryLineAligned(info: ReportInfo)
    requires LineFormats(info.datasets).Success?
    requires |Decimal.Show(info.totalItems)| <= LineFormats(info.datasets).value.totalItemsOffset
    ensures var lf := LineFormats(info.datasets).value;
      var line := SummaryLine(lf, info);
      var countEnd := |info.totalSizeStr| + lf.creatorWidth + lf.numItemsWidth + 2;
      && |line| == countEnd
      && line[..|info.totalSizeStr|] == info.totalSizeStr
      && line[countEnd - |Decimal.Show(info.totalItems)|..] == Decimal.Show(info.totalItems)
  {
    var lf := LineFormats(info.datasets).value;
    var total := TextFormat.PadLeft(Decimal.Show(info.totalItems), lf.totalItemsOffset);
    var line := SummaryLine(lf, info);
    assert line == info.totalSizeStr + " " + total;
    assert line[|line| - |total|..] == total;
  }

  /** The lines the command-line report prints: one per dataset in key
      order, then the summary. There are no lines for an empty collection,
      whose column widths cannot be computed. */
  function CmdLineReport(info: ReportInfo): (r: Result<seq<string>, Error>)
    ensures r.Failure? <==> |info.datasets| == 0
    ensures r.Success? ==> |r.value| == |info.datasets| + 1
    ensures r.Success? && info.numDatasets == |info.datasets| ==> |r.value| == info.numDatasets + 1
    ensures r.Success? ==>
      var order := SortByKey(info.datasets);
      var lf := LineFormats(info.datasets).value;
      && Sorted(order)
      && multiset(order) == multiset(info.datasets)
      && (forall k :: WithKey(order, k) == WithKey(info.datasets, k))
      && (forall i | 0 <= i < |order| :: r.value[i] == DatasetLine(lf, order[i]))
      && r.value[|order|] == SummaryLine(lf, info)
  {
    var lf :- LineFormats(info.datasets);
    var order := SortByKey(info.datasets);
    SortByKeyIsStableSort(info.datasets);
    var lines := seq(|order|, i requires 0 <= i < |order| => DatasetLine(lf, order[i]));
    Success(lines + [SummaryLine(lf, info)])
  }
}

=== FILE: collection_report.dfy ===
/** The information the `report` command gathers: per-dataset information
    for every frozen dataset under a base URI and the totals across them. */
module CollectionReport {
  import opened Wrappers
  import opened Manifests

  /** What the report keeps about one dataset. `sizeStr` and `date` are
      human-readable renderings produced outside the model. */
  datatype DatasetInfo = DatasetInfo(
    uri: string,
    uuid: string,
    sizeInt: nat,
    sizeStr: string,
    creator: string,
    name: string,
    date: string,
    numItems: nat,
    readmeContent: string)

  /** The information about one dataset. `sizeFmt` renders a byte count and
      `dateFmt` renders a freeze timestamp; both are outside the model. The
      size is the sum of the item sizes and fails on an identifier without
      recorded properties. */
  function DatasetInfoOf(ds: Dataset, sizeFmt: nat -> string, dateFmt: string -> string)
    : (r: Result<DatasetInfo, Error>)
    ensures r.Success? <==> forall id | id in ds.identifiers :: id in ds.manifest
    ensures r.Success? ==>
      && r.value.numItems == |ds.identifiers|
      && r.value.sizeStr == sizeFmt(r.value.sizeInt)
      && r.value.creator == ds.admin.creatorUsername
      && r.value.name == ds.admin.name
      && r.value.date == dateFmt(ds.admin.frozenAt)
      && r.value.uri == ds.uri
      && r.value.uuid == ds.admin.uuid
  {
    var total :- SizeSum(ds.identifiers, ds.manifest);
    Success(DatasetInfo(ds.uri, ds.admin.uuid, total, sizeFmt(total), ds.admin.creatorUsername,
                        ds.admin.name, dateFmt(ds.admin.frozenAt), |ds.identifiers|, ds.readmeContent))
  }

  /** For a dataset whose identifiers enumerate its manifest, the report
      information exists, its size is the total size of all items and its
      item count is the number of manifest entries. */
  lemma DatasetInfoTotals(ds: Dataset, sizeFmt: nat -> string, dateFmt: string -> string)
    requires Enumerates(ds.identifiers, ds.manifest)
    ensures DatasetInfoOf(ds, sizeFmt, dateFmt).Success?
    ensures DatasetInfoOf(ds, sizeFmt, dateFmt).value.sizeInt == ManifestSize(ds.manifest)
    ensures DatasetInfoOf(ds, sizeFmt, dateFmt).value.numItems == |ds.manifest|
  {
    ConsistentDatasetTotals(ds.identifiers, ds.manifest);
  }

  /** Only frozen datasets are reported; proto-datasets are skipped. */
  predicate IsFrozen(ds: Dataset) {
    ds.admin.kind == "dataset"
  }

  /** The frozen datasets of a listing, in listing order. */
  function Frozen(listing: seq<Dataset>): (r: seq<Dataset>)
    ensures forall ds :: ds in r <==> ds in listing && IsFrozen(ds)
    ensures |r| <= |listing|
  {
    if |listing| == 0 then []
    else
      var init := listing[..|listing| - 1];
      var last := listing[|listing| - 1];
      assert listing == init + [last];
      Frozen(init) + (if IsFrozen(last) then [last] else [])
  }

  function TotalSize(infos: seq<DatasetInfo>): nat {
    if |infos| == 0 then 0 else TotalSize(infos[..|infos| - 1]) + infos[|infos| - 1].sizeInt
  }

  function TotalItems(infos: seq<DatasetInfo>): nat {
    if |infos| == 0 then 0 else TotalItems(infos[..|infos| - 1]) + infos[|infos| - 1].numItems
  }

  /** Extending the listing by one dataset extends the frozen datasets by it
      exactly when it is frozen. */
  lemma FrozenPrefix(listing: seq<Dataset>, k: nat)
    requires k < |listing|
    ensures Frozen(listing[..k + 1])
         == Frozen(listing[..k]) + (if IsFrozen(listing[k]) then [listing[k]] else [])
  {
    assert listing[..k + 1][..k] == listing[..k];
  }

  lemma TotalsAppend(infos: seq<DatasetInfo>, info: DatasetInfo)
    ensures TotalSize(infos + [info]) == TotalSize(infos) + info.sizeInt
    ensures TotalItems(infos + [info]) == TotalItems(infos) + info.numItems
  {
    assert (infos + [info])[..|infos|] == infos;
  }

  /** Every frozen dataset of the listing has its information. */
  ghost predicate AllInfosBuild(listing: seq<Dataset>, sizeFmt: nat -> string, dateFmt: string -> string) {
    forall ds | ds in listing && IsFrozen(ds) :: DatasetInfoOf(ds, sizeFmt, dateFmt).Success?
  }

  /** `infos` holds the information of `frozen`, element by element. */
  ghost predicate InfosOf(frozen: seq<Dataset>, infos: seq<DatasetInfo>, sizeFmt: nat -> string, dateFmt: string -> string) {
    && |infos| == |frozen|
    && forall j | 0 <= j < |infos| :: DatasetInfoOf(frozen[j], sizeFmt, dateFmt) == Success(infos[j])
  }

  /** What `BaseUriInfo` knows after scanning the first `k` datasets of the
      listing: each frozen one among them has its information, `infos` holds
      it in listing order, and the running totals sum it. */
  ghost predicate Scanned(listing: seq<Dataset>, k: nat, infos: seq<DatasetInfo>, totalSize: int, totalItems: int,
                          sizeFmt: nat -> string, dateFmt: string -> string) {
    && k <= |listing|
    && AllInfosBuild(listing[..k], sizeFmt, dateFmt)
    && InfosOf(Frozen(listing[..k]), infos, sizeFmt, dateFmt)
    && totalSize == TotalSize(infos)
    && totalItems == TotalItems(infos)
  }

  lemma AllInfosBuildAppend(listing: seq<Dataset>, ds: Dataset, sizeFmt: nat -> string, dateFmt: string -> string)
    requires AllInfosBuild(listing, sizeFmt, dateFmt)
    requires IsFrozen(ds) ==> DatasetInfoOf(ds, sizeFmt, dateFmt).Success?
    ensures AllInfosBuild(listing + [ds], sizeFmt, dateFmt)
  {
  }

  lemma InfosOfAppend(frozen: seq<Dataset>, infos: seq<DatasetInfo>, ds: Dataset, info: DatasetInfo,
                      sizeFmt: nat -> string, dateFmt: string -> string)
    requires InfosOf(frozen, infos, sizeFmt, dateFmt)
    requires DatasetInfoOf(ds, sizeFmt, dateFmt) == Success(info)
    ensures InfosOf(frozen + [ds], infos + [info], sizeFmt, dateFmt)
  {
    var f := frozen + [ds];
    var next := infos + [info];
    assert forall j | 0 <= j < |infos| :: next[j] == infos[j] && f[j] == frozen[j];
  }

  /** Scanning a proto-dataset changes nothing. */
  lemma ScanSkip(listing: seq<Dataset>, k: nat, infos: seq<DatasetInfo>, totalSize: int, totalItems: int,
                 sizeFmt: nat -> string, dateFmt: string -> string)
    requires k < |listing| && !IsFrozen(listing[k])
    requires Scanned(listing, k, infos, totalSize, totalItems, sizeFmt, dateFmt)
    ensures Scanned(listing, k + 1, infos, totalSize, totalItems, sizeFmt, dateFmt)
  {
    assert listing[..k + 1] == listing[..k] + [listing[k]];
    FrozenPrefix(listing, k);
    AllInfosBuildAppend(listing[..k], listing[k], sizeFmt, dateFmt);
  }

  /** Scanning a frozen dataset adds its information at the end and its size
      and item count to the totals. */
  lemma ScanTake(listing: seq<Dataset>, k: nat, infos: seq<DatasetInfo>, totalSize: int, totalItems: int,
                 sizeFmt: nat -> string, dateFmt: string -> string, info: DatasetInfo)
    requires k < |listing| && IsFrozen(listing[k])
    requires DatasetInfoOf(listing[k], sizeFmt, dateFmt) == Success(info)
    requires Scanned(listing, k, infos, totalSize, totalItems, sizeFmt, dateFmt)
    ensures Scanned(listing, k + 1, infos + [info], totalSize + info.sizeInt, totalItems + info.numItems, sizeFmt, dateFmt)
  {
    assert listing[..k + 1] == listing[..k] + [listing[k]];
    FrozenPrefix(listing, k);
    AllInfosBuildAppend(listing[..k], listing[k], sizeFmt, dateFmt);
    InfosOfAppend(Frozen(listing[..k]), infos, listing[k], info, sizeFmt, dateFmt);
    TotalsAppend(infos, info);
  }

  /** The information about a base URI: its frozen datasets and the totals. */
  datatype ReportInfo = ReportInfo(
    totalSizeInt: nat,
    totalItems: nat,
    datasets: seq<DatasetInfo>,
    totalSizeStr: string,
    numDatasets: nat)

  /** Gathers the information about every frozen dataset of `listing` (the
      URIs the storage layer lists under the base URI, opened) and sums sizes
      and item counts across them. */
  method BaseUriInfo(listing: seq<Dataset>, sizeFmt: nat -> string, dateFmt: string -> string)
    returns (r: Result<ReportInfo, Error>)
    ensures r.Success? <==> AllInfosBuild(listing, sizeFmt, dateFmt)
    ensures r.Success? ==> InfosOf(Frozen(listing), r.value.datasets, sizeFmt, dateFmt)
    ensures r.Success? ==> r.value.totalSizeInt == TotalSize(r.value.datasets)
    ensures r.Success? ==> r.value.totalItems == TotalItems(r.value.datasets)
    ensures r.Success? ==> r.value.numDatasets == |r.value.datasets|
    ensures r.Success? ==> r.value.totalSizeStr == sizeFmt(r.value.totalSizeInt)
  {
    var infos: seq<DatasetInfo> := [];
    var totalSize := 0;
    var totalItems := 0;
    var k := 0;
    while k < |listing|
      invariant Scanned(listing, k, infos, totalSize, totalItems, sizeFmt, dateFmt)
    {
      var ds := listing[k];
      if IsFrozen(ds) {
        var info := DatasetInfoOf(ds, sizeFmt, dateFmt);
        if info.Failure? {
          assert ds in listing;
          return Failure(info.error);
        }
        ScanTake(listing, k, infos, totalSize, totalItems, sizeFmt, dateFmt, info.value);
        infos := infos + [info.value];
        totalSize := totalSize + info.value.sizeInt;
        totalItems := totalItems + info.value.numItems;
      } else {
        ScanSkip(listing, k, infos, totalSize, totalItems, sizeFmt, dateFmt);
      }
      k := k + 1;
    }
    assert listing[..k] == listing;
    r := Success(ReportInfo(totalSize, totalItems, infos, sizeFmt(totalSize), |infos|));
  }
}

=== FILE: dataset_scenarios.dfy ===
/** Small concrete runs of `diff` and `verify` on two- and three-item
    datasets, using the reference comparators. */
module DatasetScenarios {
  import opened Manifests
  import opened StagedDiff
  import opened Verification

  const Admin := AdminMetadata("dataset", "ds", "uuid", "user", "0")

  function Item(size: nat, hash: string): ItemProperties {
    ItemProperties("path", size, hash, "0")
  }

  function DatasetOf(ids: seq<Id>, m: Manifest): Dataset {
    Dataset("file:///ds", Admin, ids, m, "")
  }

  /** A content hash function under which every item hashes to `h`. */
  function ConstantHash(h: string): Id -> string {
    _ => h
  }

  const TwoItems := DatasetOf(["x", "y"], map["x" := Item(10, "h"), "y" := Item(20, "h")])
  const ThreeItems := DatasetOf(["x", "y", "z"], map["x" := Item(10, "h"), "y" := Item(20, "h"), "z" := Item(5, "h")])

  /** Only "z" is in one listing and not the other. */
  lemma ExtraReferenceIdentifier()
    ensures DiffIdentifiers(TwoItems, ThreeItems) == [DiffRecord("z", Presence(false), Presence(true))]
  {
    var a := TwoItems;
    var b := ThreeItems;
    assert OnlyIn(a.identifiers, b.identifiers, true) == [] by {
      assert "x" in b.identifiers && "y" in b.identifiers;
    }
    assert OnlyIn(b.identifiers, a.identifiers, false) == [DiffRecord("z", Presence(false), Presence(true))] by {
      assert b.identifiers[1..] == ["y", "z"] && b.identifiers[2..] == ["z"];
    }
  }

  /** The reference holds an extra item "z": only the identifier stage runs
      and it reports "z" as absent from the dataset. */
  lemma DiffReportsExtraReferenceItem()
    ensures var run := Diff(TwoItems, ThreeItems, true, StandardComparators(ConstantHash("h")));
      && run.outcome == IdentifiersDiffer && StagedDiff.ExitCode(run.outcome) == 1
      && run.evaluated == [IdentifierStage]
      && run.reported == [DiffRecord("z", Presence(false), Presence(true))]
  {
    ExtraReferenceIdentifier();
  }

  /** Same identifiers, "y" is 20 bytes in one and 25 in the other: the size
      stage reports "y" alone and the content stage does not run. */
  lemma DiffReportsSizeMismatch()
    ensures var a := DatasetOf(["x", "y"], map["x" := Item(10, "h"), "y" := Item(20, "h")]);
      var b := DatasetOf(["x", "y"], map["x" := Item(10, "h"), "y" := Item(25, "h")]);
      var run := Diff(a, b, true, StandardComparators(ConstantHash("h")));
      && run.outcome == SizesDiffer && StagedDiff.ExitCode(run.outcome) == 2
      && run.evaluated == [IdentifierStage, SizeStage]
      && run.reported == [DiffRecord("y", Size(20), Size(25))]
  {
    var a := DatasetOf(["x", "y"], map["x" := Item(10, "h"), "y" := Item(20, "h")]);
    var b := DatasetOf(["x", "y"], map["x" := Item(10, "h"), "y" := Item(25, "h")]);
    assert |DiffIdentifiers(a, b)| == 0;
    assert a.identifiers[1..] == ["y"] && a.identifiers[2..] == [];
    assert DiffSizes(a, b) == [DiffRecord("y", Size(20), Size(25))];
  }

  /** Same identifiers and sizes, but "y" rehashes to something other than
      the reference's record: a full diff ends in the content stage. */
  lemma DiffReportsContentMismatch()
    ensures var a := DatasetOf(["y"], map["y" := Item(20, "new")]);
      var b := DatasetOf(["y"], map["y" := Item(20, "old")]);
      var run := Diff(a, b, true, StandardComparators(ConstantHash("new")));
      && run.outcome == ContentDiffers && StagedDiff.ExitCode(run.outcome) == 3
      && run.reported == [DiffRecord("y", Hash("new"), Hash("old"))]
  {
    var a := DatasetOf(["y"], map["y" := Item(20, "new")]);
    var b := DatasetOf(["y"], map["y" := Item(20, "old")]);
    assert |DiffIdentifiers(a, b)| == 0;
    assert |DiffSizes(a, b)| == 0;
    assert DiffContent(a, b, ConstantHash("new")) == [DiffRecord("y", Hash("new"), Hash("old"))];
  }

  /** The persisted manifest has {a, b}, the storage now holds {a, c}: "b" is
      missing, "c" is unknown, and the check fails. */
  lemma VerifyReportsMissingAndUnknown(full: bool)
    ensures var persisted := map["a" := Item(1, "h"), "b" := Item(2, "h")];
      var generated := map["a" := Item(1, "h"), "c" := Item(3, "h")];
      var f := Classify(persisted, generated, full);
      && f.missing == {"b"} && f.unknown == {"c"} && f.altered == {}
      && !Passes(f)
  {
    var persisted := map["a" := Item(1, "h"), "b" := Item(2, "h")];
    var generated := map["a" := Item(1, "h"), "c" := Item(3, "h")];
    assert persisted.Keys == {"a", "b"} && generated.Keys == {"a", "c"};
    assert "b" in Classify(persisted, generated, full).missing;
  }

  /** Only the hash of "a" changed: a full check reports it as altered and
      fails; a quick check passes. */
  lemma VerifyHashChangeNeedsFull()
    ensures var persisted := map["a" := Item(1, "old")];
      var generated := map["a" := Item(1, "new")];
      && Classify(persisted, generated, true).altered == {"a"}
      && !Passes(Classify(persisted, generated, true))
      && Passes(Classify(persisted, generated, false))
  {
    var persisted := map["a" := Item(1, "old")];
    var generated := map["a" := Item(1, "new")];
    assert persisted.Keys == generated.Keys == {"a"};
    assert "a" in Classify(persisted, generated, true).altered;
  }
}

=== FILE: decimal.dfy ===
/** Python's `str` of a non-negative integer: its shortest decimal form. */
module Decimal {

  predicate IsDigit(c: char) {
    '0' <= c <= '9'
  }

  function DigitChar(d: nat): (c: char)
    requires d < 10
    ensures IsDigit(c)
  {
    (48 + d) as char
  }

  function DigitValue(c: char): (d: nat)
    requires IsDigit(c)
    ensures d < 10 && DigitChar(d) == c
  {
    (c as int - 48) as nat
  }

  predicate AllDigits(s: string) {
    forall i | 0 <= i < |s| :: IsDigit(s[i])
  }

  /** The decimal digits of `n`, most significant first, without leading zeros. */
  function Show(n: nat): (s: string)
    ensures |s| >= 1
    ensures |s| > 1 ==> s[0] != '0'
    decreases n
  {
    if n < 10 then [DigitChar(n)] else Show(n / 10) + [DigitChar(n % 10)]
  }

  /** Every character of the decimal form is a digit. */
  lemma {:induction false} ShowDigits(n: nat)
    ensures AllDigits(Show(n))
    decreases n
  {
    if n >= 10 {
      ShowDigits(n / 10);
    }
  }

  /** The value of a string of decimal digits. */
  function Parse(s: string): nat
    requires AllDigits(s)
    decreases |s|
  {
    if |s| == 0 then 0 else Parse(s[..|s| - 1]) * 10 + DigitValue(s[|s| - 1])
  }

  /** Reading back the decimal form of `n` gives `n`. */
  lemma {:induction false} ParseShow(n: nat)
    ensures AllDigits(Show(n)) && Parse(Show(n)) == n
    decreases n
  {
    var s := Show(n);
    ShowDigits(n);
    if n >= 10 {
      ParseShow(n / 10);
      assert s[..|s| - 1] == Show(n / 10);
    }
  }

  function Pow10(k: nat): (p: nat)
    ensures p >= 1
  {
    if k == 0 then 1 else 10 * Pow10(k - 1)
  }

  /** The length of the decimal form is the digit count of `n`: `n` lies
      below 10 to that power and, past one digit, at or above 10 to one less. */
  lemma {:induction false} ShowLength(n: nat)
    ensures n < Pow10(|Show(n)|)
    ensures |Show(n)| > 1 ==> Pow10(|Show(n)| - 1) <= n
    decreases n
  {
    if n >= 10 {
      ShowLength(n / 10);
    }
  }
}

=== FILE: lexicographic.dfy ===
/** Python's ordering of strings (code point by code point, a proper prefix
    first) and of tuples of strings (first differing component decides). */
module Lexicographic {

  /** `a <= b` on Python strings. */
  predicate StrLe(a: string, b: string)
    decreases |a|
  {
    |a| == 0 || (|b| > 0 && (a[0] < b[0] || (a[0] == b[0] && StrLe(a[1..], b[1..]))))
  }

  /** `a < b` on Python strings. */
  predicate StrLt(a: string, b: string) {
    StrLe(a, b) && a != b
  }

  lemma {:induction false} StrLeReflexive(a: string)
    ensures StrLe(a, a)
    decreases |a|
  {
    if |a| > 0 {
      StrLeReflexive(a[1..]);
    }
  }

  lemma {:induction false} StrLeTotal(a: string, b: string)
    ensures StrLe(a, b) || StrLe(b, a)
    decreases |a|
  {
    if |a| > 0 && |b| > 0 && a[0] == b[0] {
      StrLeTotal(a[1..], b[1..]);
    }
  }

  lemma {:induction false} StrLeAntisymmetric(a: string, b: string)
    requires StrLe(a, b) && StrLe(b, a)
    ensures a == b
    decreases |a|
  {
    if |a| > 0 {
      StrLeAntisymmetric(a[1..], b[1..]);
      assert a == [a[0]] + a[1..] && b == [b[0]] + b[1..];
    }
  }

  lemma {:induction false} StrLeTransitive(a: string, b: string, c: string)
    requires StrLe(a, b) && StrLe(b, c)
    ensures StrLe(a, c)
    decreases |a|
  {
    if |a| > 0 && a[0] == b[0] && b[0] == c[0] {
      StrLeTransitive(a[1..], b[1..], c[1..]);
    }
  }

  /** A sort key: the (creator, date, name) triple of a report line. */
  datatype Key = Key(first: string, second: string, third: string)

  /** `x <= y` on Python tuples of three strings. */
  predicate KeyLe(x: Key, y: Key) {
    || StrLt(x.first, y.first)
    || (x.first == y.first && StrLt(x.second, y.second))
    || (x.first == y.first && x.second == y.second && StrLe(x.third, y.third))
  }

  /** The tuple order is a total order. */
  lemma KeyLeTotalOrder(x: Key, y: Key, z: Key)
    ensures KeyLe(x, x)
    ensures KeyLe(x, y) || KeyLe(y, x)
    ensures KeyLe(x, y) && KeyLe(y, x) ==> x == y
    ensures KeyLe(x, y) && KeyLe(y, z) ==> KeyLe(x, z)
  {
    StrLeReflexive(x.third);
    StrLeTotal(x.first, y.first);
    StrLeTotal(x.second, y.second);
    StrLeTotal(x.third, y.third);
    if StrLe(x.first, y.first) && StrLe(y.first, x.first) {
      StrLeAntisymmetric(x.first, y.first);
    }
    if StrLe(x.second, y.second) && StrLe(y.second, x.second) {
      StrLeAntisymmetric(x.second, y.second);
    }
    if StrLe(x.third, y.third) && StrLe(y.third, x.third) {
      StrLeAntisymmetric(x.third, y.third);
    }
    if KeyLe(x, y) && KeyLe(y, z) {
      KeyLeTransitive(x, y, z);
    }
  }

  lemma KeyLeTransitive(x: Key, y: Key, z: Key)
    requires KeyLe(x, y) && KeyLe(y, z)
    ensures KeyLe(x, z)
  {
    StrLeReflexive(y.first);
    StrLeReflexive(y.second);
    if StrLt(x.first, y.first) || StrLt(y.first, z.first) {
      StrLeTransitive(x.first, y.first, z.first);
      if x.first == z.first {
        StrLeAntisymmetric(x.first, y.first);
      }
    } else if StrLt(x.second, y.second) || StrLt(y.second, z.second) {
      StrLeTransitive(x.second, y.second, z.second);
      if x.second == z.second {
        StrLeAntisymmetric(x.second, y.second);
      }
    } else {
      StrLeTransitive(x.third, y.third, z.third);
    }
  }
}

=== FILE: manifests.dfy ===
/** The shared data model: items, manifests and datasets as the storage
    layer hands them to the commands, and the size total both the `summary`
    command and the collection report compute from them. */
module Manifests {
  import opened Wrappers

  /** An item identifier, derived by the storage layer from a relative path. */
  type Id = string

  /** The recorded properties of one item. The timestamp is a float in the
      storage layer and is kept here as an opaque string. */
  datatype ItemProperties = ItemProperties(
    relpath: string,
    sizeInBytes: nat,
    hash: string,
    utcTimestamp: string)

  /** A manifest maps each identifier to the properties of its item. */
  type Manifest = map<Id, ItemProperties>

  /** The administrative metadata of a dataset; `kind` is "dataset" for a
      frozen dataset and "protodataset" for one still being written. The
      freeze time is a float timestamp, kept opaque. */
  datatype AdminMetadata = AdminMetadata(
    kind: string,
    name: string,
    uuid: string,
    creatorUsername: string,
    frozenAt: string)

  /** A dataset as opened from a URI: its metadata, the identifiers in the
      order the storage layer enumerates them, and its persisted manifest. */
  datatype Dataset = Dataset(
    uri: string,
    admin: AdminMetadata,
    identifiers: seq<Id>,
    manifest: Manifest,
    readmeContent: string)

  /** The failures the model keeps: asking for the properties of an item the
      manifest does not hold, and taking the maximum of an empty list. */
  datatype Error = NoSuchItem(id: Id) | EmptyMax

  /** The properties of an item, failing on an identifier the manifest lacks. */
  function PropertiesOf(m: Manifest, id: Id): Result<ItemProperties, Error> {
    if id in m then Success(m[id]) else Failure(NoSuchItem(id))
  }

  /** True when `ids` lists every key of `m` exactly once: what a dataset's
      identifier enumeration is with respect to its own manifest. */
  predicate Enumerates(ids: seq<Id>, m: Manifest) {
    && (forall i, j | 0 <= i < j < |ids| :: ids[i] != ids[j])
    && (forall id | id in ids :: id in m)
    && (forall id | id in m :: id in ids)
  }

  /** The sum of the sizes of the items `ids` names, looked up in order in
      `m`; the first identifier `m` lacks aborts the sum. */
  function SizeSum(ids: seq<Id>, m: Manifest): (r: Result<nat, Error>)
    ensures r.Success? <==> forall id | id in ids :: id in m
    ensures r.Failure? ==> r.error.NoSuchItem? && r.error.id in ids && r.error.id !in m
  {
    if |ids| == 0 then Success(0)
    else
      var props :- PropertiesOf(m, ids[0]);
      var rest :- SizeSum(ids[1..], m);
      Success(props.sizeInBytes + rest)
  }

  /** The total size of the items whose identifiers are `keys`, as a sum over
      a set: the order-free reference for `SizeSum`. */
  ghost function KeysSize(keys: set<Id>, m: Manifest): nat
    requires keys <= m.Keys
    decreases keys
  {
    if keys == {} then 0
    else
      var k :| k in keys;
      m[k].sizeInBytes + KeysSize(keys - {k}, m)
  }

  /** The total size of every item of a manifest. */
  ghost function ManifestSize(m: Manifest): nat {
    KeysSize(m.Keys, m)
  }

  /** Any element may be taken out first: the set sum does not depend on the
      element `KeysSize` happens to choose. */
  lemma {:induction false} KeysSizeRemove(keys: set<Id>, m: Manifest, k: Id)
    requires keys <= m.Keys
    requires k in keys
    ensures KeysSize(keys, m) == m[k].sizeInBytes + KeysSize(keys - {k}, m)
    decreases keys
  {
    var j :| j in keys && KeysSize(keys, m) == m[j].sizeInBytes + KeysSize(keys - {j}, m);
    if j != k {
      KeysSizeRemove(keys - {j}, m, k);
      KeysSizeRemove(keys - {k}, m, j);
      assert keys - {j} - {k} == keys - {k} - {j};
    }
  }

  /** Summing the sizes along an enumeration without repeats gives the set
      sum of the enumerated identifiers, whatever the order. */
  lemma {:induction false} SizeSumIsKeysSize(ids: seq<Id>, m: Manifest)
    requires forall i, j | 0 <= i < j < |ids| :: ids[i] != ids[j]
    requires forall id | id in ids :: id in m
    ensures (set id | id in ids) <= m.Keys
    ensures SizeSum(ids, m) == Success(KeysSize((set id | id in ids), m))
  {
    var keys := set id | id in ids;
    if |ids| > 0 {
      var tail := ids[1..];
      SizeSumIsKeysSize(tail, m);
      assert (set id | id in tail) == keys - {ids[0]} by {
        forall id | id in keys
          ensures id in tail <==> id != ids[0]
        {
          var k :| 0 <= k < |ids| && ids[k] == id;
        }
      }
      KeysSizeRemove(keys, m, ids[0]);
    } else {
      assert keys == {};
    }
  }

  /** An enumeration without repeats is as long as the set it enumerates. */
  lemma {:induction false} DistinctLength(ids: seq<Id>)
    requires forall i, j | 0 <= i < j < |ids| :: ids[i] != ids[j]
    ensures |set id | id in ids| == |ids|
  {
    if |ids| > 0 {
      var tail := ids[1..];
      DistinctLength(tail);
      assert (set id | id in ids) == (set id | id in tail) + {ids[0]};
      assert ids[0] !in tail;
    } else {
      assert (set id | id in ids) == {};
    }
  }

  /** For a dataset whose identifiers enumerate its manifest, the size sum
      never fails, equals the manifest's total size, and the identifier count
      equals the number of manifest entries. */
  lemma ConsistentDatasetTotals(ids: seq<Id>, m: Manifest)
    requires Enumerates(ids, m)
    ensures SizeSum(ids, m) == Success(ManifestSize(m))
    ensures |ids| == |m|
  {
    SizeSumIsKeysSize(ids, m);
    assert (set id | id in ids) == m.Keys;
    DistinctLength(ids);
  }

  /** Two enumerations of the same manifest give the same size sum. */
  lemma SizeSumOrderIndependent(ids1: seq<Id>, ids2: seq<Id>, m: Manifest)
    requires Enumerates(ids1, m) && Enumerates(ids2, m)
    ensures SizeSum(ids1, m) == SizeSum(ids2, m)
  {
    ConsistentDatasetTotals(ids1, m);
    ConsistentDatasetTotals(ids2, m);
  }
}

=== FILE: report_order.dfy ===
/** The order of the report lines: datasets sorted by the key
    (creator, date, name) with Python's stable sort. The model sorts by
    insertion; since a stable sort's output is unique, it agrees with any
    other stable sort. */
module ReportOrder {
  import opened Lexicographic
  import opened CollectionReport

  function KeyOf(d: DatasetInfo): Key {
    Key(d.creator, d.date, d.name)
  }

  ghost predicate Sorted(s: seq<DatasetInfo>) {
    forall i, j | 0 <= i < j < |s| :: KeyLe(KeyOf(s[i]), KeyOf(s[j]))
  }

  /** The elements of `s` whose key is `k`, in their order in `s`. A sort is
      stable when it leaves every such subsequence as it was. */
  function WithKey(s: seq<DatasetInfo>, k: Key): seq<DatasetInfo> {
    if |s| == 0 then []
    else (if KeyOf(s[0]) == k then [s[0]] else []) + WithKey(s[1..], k)
  }

  lemma {:induction false} WithKeyMembers(s: seq<DatasetInfo>, k: Key, y: DatasetInfo)
    requires y in WithKey(s, k)
    ensures y in s && KeyOf(y) == k
  {
    if |s| > 0 {
      var head := if KeyOf(s[0]) == k then [s[0]] else [];
      if y !in head {
        WithKeyMembers(s[1..], k, y);
      }
    }
  }

  /** Places `x` before the first element whose key is not below its own. */
  function Insert(x: DatasetInfo, s: seq<DatasetInfo>): (r: seq<DatasetInfo>)
    ensures multiset(r) == multiset(s) + multiset{x}
  {
    if |s| == 0 then [x]
    else if KeyLe(KeyOf(x), KeyOf(s[0])) then [x] + s
    else
      assert s == [s[0]] + s[1..];
      [s[0]] + Insert(x, s[1..])
  }

  /** Putting in front an element whose key is below every member's keeps
      a sequence sorted. */
  lemma PrependSorted(x: DatasetInfo, s: seq<DatasetInfo>)
    requires Sorted(s)
    requires forall y | y in s :: KeyLe(KeyOf(x), KeyOf(y))
    ensures Sorted([x] + s)
  {
    var r := [x] + s;
    forall i, j | 0 <= i < j < |r|
      ensures KeyLe(KeyOf(r[i]), KeyOf(r[j]))
    {
      assert r[j] == s[j - 1];
      if i > 0 {
        assert r[i] == s[i - 1];
      }
    }
  }

  /** A key below the first of a sorted sequence is below all of it. */
  lemma BelowFirst(x: DatasetInfo, s: seq<DatasetInfo>)
    requires Sorted(s) && |s| > 0 && KeyLe(KeyOf(x), KeyOf(s[0]))
    ensures forall y | y in s :: KeyLe(KeyOf(x), KeyOf(y))
  {
    forall y | y in s
      ensures KeyLe(KeyOf(x), KeyOf(y))
    {
      var j :| 0 <= j < |s| && s[j] == y;
      if j > 0 {
        KeyLeTransitive(KeyOf(x), KeyOf(s[0]), KeyOf(y));
      }
    }
  }

  /** Every member of `Insert(x, s)` is `x` or a member of `s`. */
  lemma InsertMembers(x: DatasetInfo, s: seq<DatasetInfo>)
    ensures forall y | y in Insert(x, s) :: y == x || y in s
  {
    forall y | y in Insert(x, s)
      ensures y == x || y in s
    {
      assert y in multiset(Insert(x, s));
    }
  }

  lemma {:induction false} InsertSorted(x: DatasetInfo, s: seq<DatasetInfo>)
    requires Sorted(s)
    ensures Sorted(Insert(x, s))
  {
    if |s| == 0 {
    } else if KeyLe(KeyOf(x), KeyOf(s[0])) {
      BelowFirst(x, s);
      PrependSorted(x, s);
    } else {
      var t := Insert(x, s[1..]);
      InsertSorted(x, s[1..]);
      KeyLeTotalOrder(KeyOf(x), KeyOf(s[0]), KeyOf(x));
      assert Sorted(s[1..]);
      KeyLeTotalOrder(KeyOf(s[0]), KeyOf(s[0]), KeyOf(s[0]));
      BelowFirst(s[0], s);
      InsertMembers(x, s[1..]);
      assert forall y | y in s[1..] :: y in s;
      PrependSorted(s[0], t);
    }
  }

  lemma WithKeyCons(y: DatasetInfo, t: seq<DatasetInfo>, k: Key)
    ensures WithKey([y] + t, k) == (if KeyOf(y) == k then [y] else []) + WithKey(t, k)
  {
    assert ([y] + t)[1..] == t;
  }

  /** An element of another key in front of both sides keeps `x`'s place
      at the front of its key's subsequence. */
  lemma ConsOtherKey(x: DatasetInfo, y: DatasetInfo, t: seq<DatasetInfo>, u: seq<DatasetInfo>, k: Key)
    requires KeyOf(x) != KeyOf(y)
    requires WithKey(t, k) == (if KeyOf(x) == k then [x] else []) + WithKey(u, k)
    ensures WithKey([y] + t, k) == (if KeyOf(x) == k then [x] else []) + WithKey([y] + u, k)
  {
    WithKeyCons(y, t, k);
    WithKeyCons(y, u, k);
  }

  /** Inserting `x` adds it at the front of its own key's subsequence and
      leaves every other key's subsequence unchanged. */
  lemma {:induction false} InsertWithKey(x: DatasetInfo, s: seq<DatasetInfo>, k: Key)
    ensures WithKey(Insert(x, s), k) == (if KeyOf(x) == k then [x] else []) + WithKey(s, k)
  {
    if |s| == 0 {
    } else if KeyLe(KeyOf(x), KeyOf(s[0])) {
      WithKeyCons(x, s, k);
    } else {
      InsertWithKey(x, s[1..], k);
      InsertPastHead(x, s, k);
    }
  }

  /** The step of `InsertWithKey` where `x` goes past the first element. */
  lemma InsertPastHead(x: DatasetInfo, s: seq<DatasetInfo>, k: Key)
    requires |s| > 0 && !KeyLe(KeyOf(x), KeyOf(s[0]))
    requires WithKey(Insert(x, s[1..]), k) == (if KeyOf(x) == k then [x] else []) + WithKey(s[1..], k)
    ensures WithKey(Insert(x, s), k) == (if KeyOf(x) == k then [x] else []) + WithKey(s, k)
  {
    KeyLeTotalOrder(KeyOf(x), KeyOf(x), KeyOf(x));
    assert s == [s[0]] + s[1..];
    ConsOtherKey(x, s[0], Insert(x, s[1..]), s[1..], k);
  }

  /** `sorted(datasets, key=itemgetter("creator", "date", "name"))`. */
  function SortByKey(s: seq<DatasetInfo>): (r: seq<DatasetInfo>)
    ensures multiset(r) == multiset(s)
    ensures |r| == |s|
  {
    if |s| == 0 then []
    else
      assert s == [s[0]] + s[1..];
      Insert(s[0], SortByKey(s[1..]))
  }

  /** The sort orders by key, permutes its input and is stable. */
  lemma {:induction false} SortByKeyIsStableSort(s: seq<DatasetInfo>)
    ensures Sorted(SortByKey(s))
    ensures forall k :: WithKey(SortByKey(s), k) == WithKey(s, k)
  {
    if |s| > 0 {
      SortByKeyIsStableSort(s[1..]);
      InsertSorted(s[0], SortByKey(s[1..]));
      forall k
        ensures WithKey(SortByKey(s), k) == WithKey(s, k)
      {
        InsertWithKey(s[0], SortByKey(s[1..]), k);
      }
    }
  }

  lemma FirstKeyPresent(s: seq<DatasetInfo>)
    ensures |s| > 0 ==> WithKey(s, KeyOf(s[0])) != []
  {
  }

  /** In a sorted sequence the first element's key is below every member's. */
  lemma FirstIsLeast(q: seq<DatasetInfo>, y: DatasetInfo)
    requires Sorted(q) && y in q
    ensures KeyLe(KeyOf(q[0]), KeyOf(y))
  {
    var j :| 0 <= j < |q| && q[j] == y;
    if j == 0 {
      KeyLeTotalOrder(KeyOf(y), KeyOf(y), KeyOf(y));
    }
  }

  /** Two sorted sequences with the same subsequence for every key are equal. */
  lemma {:induction false} SortedStableUnique(r: seq<DatasetInfo>, q: seq<DatasetInfo>)
    requires Sorted(r) && Sorted(q)
    requires forall k :: WithKey(r, k) == WithKey(q, k)
    ensures r == q
    decreases |r|
  {
    if |r| == 0 || |q| == 0 {
      FirstKeyPresent(r);
      FirstKeyPresent(q);
    } else {
      var kr := KeyOf(r[0]);
      var kq := KeyOf(q[0]);
      assert WithKey(r, kr)[0] == r[0];
      assert WithKey(q, kq)[0] == q[0];
      WithKeyMembers(q, kr, r[0]);
      WithKeyMembers(r, kq, q[0]);
      FirstIsLeast(q, r[0]);
      FirstIsLeast(r, q[0]);
      KeyLeTotalOrder(kr, kq, kr);
      assert r[0] == q[0];
      forall k
        ensures WithKey(r[1..], k) == WithKey(q[1..], k)
      {
        var head := if KeyOf(r[0]) == k then [r[0]] else [];
        assert WithKey(r, k) == head + WithKey(r[1..], k);
        assert WithKey(q, k) == head + WithKey(q[1..], k);
        assert WithKey(r[1..], k) == (head + WithKey(r[1..], k))[|head|..];
        assert WithKey(q[1..], k) == (head + WithKey(q[1..], k))[|head|..];
      }
      SortedStableUnique(r[1..], q[1..]);
      assert r == [r[0]] + r[1..] && q == [q[0]] + q[1..];
    }
  }

  /** Any stable sort of `s` by the key returns exactly `SortByKey(s)`. */
  lemma StableSortIsUnique(s: seq<DatasetInfo>, r: seq<DatasetInfo>)
    requires Sorted(r)
    requires forall k :: WithKey(r, k) == WithKey(s, k)
    ensures r == SortByKey(s)
  {
    SortByKeyIsStableSort(s);
    SortedStableUnique(r, SortByKey(s));
  }
}

=== FILE: report_scenario.dfy ===
/** The collection used by the report command's functional test: two frozen
    datasets by the same creator on the same day, "big_cats" (3 items,
    19 bytes) and "toys" (2 items, 11 bytes). */
module ReportScenario {
  import opened Wrappers
  import opened CollectionReport
  import opened CommandLineReport
  import opened ReportOrder
  import opened Lexicographic
  import Decimal
  import TextFormat

  const Toys := DatasetInfo("file:///toys", "toys-uuid", 11, "  11.0B  ", "olssont", "toys", "2018-05-16", 2, "")
  const BigCats := DatasetInfo("file:///big_cats", "big_cats-uuid", 19, "  19.0B  ", "olssont", "big_cats", "2018-05-16", 3, "")

  /** The totals the test expects: 19 + 11 bytes and 3 + 2 items. */
  lemma ScenarioTotals()
    ensures TotalSize([Toys, BigCats]) == 30
    ensures TotalItems([Toys, BigCats]) == 5
  {
    assert [Toys][..0] == [];
    assert TotalSize([Toys]) == 11;
    assert TotalItems([Toys]) == 2;
    assert [Toys, BigCats][..1] == [Toys];
  }

  const Info := ReportInfo(30, 5, [Toys, BigCats], "  30.0B  ", 2)
  const Widths := LineFormat(7, 1, 9)

  /** The same creator and date, so the names decide: big_cats first. */
  lemma ScenarioOrder()
    ensures SortByKey([Toys, BigCats]) == [BigCats, Toys]
  {
    assert !KeyLe(KeyOf(Toys), KeyOf(BigCats));
    assert SortByKey([BigCats]) == [BigCats];
    assert [Toys, BigCats][1..] == [BigCats];
  }

  /** The creator column is 7 wide ("olssont"), the item-count column 1 wide
      and the item total 9 wide. */
  lemma ScenarioWidths()
    ensures LineFormats(Info.datasets) == Success(Widths)
  {
    assert Decimal.Show(3) == "3" && Decimal.Show(2) == "2";
  }

  lemma ScenarioBigCatsLine()
    ensures DatasetLine(Widths, BigCats) == "  19.0B  " + " " + "olssont" + " " + "3" + " " + ("2018-05-16" + " " + "big_cats")
  {
    assert Decimal.Show(3) == "3";
    assert TextFormat.PadRight("olssont", 7) == "olssont";
    assert TextFormat.PadLeft("3", 1) == "3";
  }

  lemma ScenarioToysLine()
    ensures DatasetLine(Widths, Toys) == "  11.0B  " + " " + "olssont" + " " + "2" + " " + ("2018-05-16" + " " + "toys")
  {
    assert Decimal.Show(2) == "2";
    assert TextFormat.PadRight("olssont", 7) == "olssont";
    assert TextFormat.PadLeft("2", 1) == "2";
  }

  lemma ScenarioSummaryLine()
    ensures SummaryLine(Widths, Info) == "  30.0B  " + " " + "        " + "5"
  {
    assert Decimal.Show(5) == "5";
    assert TextFormat.Spaces(8) == "        ";
  }

  /** Listed as toys, big_cats, the report prints big_cats first and ends
      with the totals. */
  lemma ScenarioReportShape()
    ensures CmdLineReport(Info) == Success([DatasetLine(Widths, BigCats), DatasetLine(Widths, Toys), SummaryLine(Widths, Info)])
  {
    ScenarioOrder();
    ScenarioWidths();
    var r := CmdLineReport(Info);
    var order := SortByKey(Info.datasets);
    assert order == [BigCats, Toys];
    assert r.Success? && |r.value| == 3;
    assert r.value[0] == DatasetLine(Widths, order[0]);
    assert r.value[1] == DatasetLine(Widths, order[1]);
    assert r.value[2] == SummaryLine(Widths, Info);
    ThreeLines(r.value, DatasetLine(Widths, BigCats), DatasetLine(Widths, Toys), SummaryLine(Widths, Info));
  }

  lemma ThreeLines(lines: seq<string>, a: string, b: string, c: string)
    requires |lines| == 3 && lines[0] == a && lines[1] == b && lines[2] == c
    ensures lines == [a, b, c]
  {
  }

  /** The printed lines; the test compares them after stripping:
      "  19.0B   olssont 3 2018-05-16 big_cats",
      "  11.0B   olssont 2 2018-05-16 toys" and
      "  30.0B           5". */
  lemma ScenarioLines()
    ensures CmdLineReport(Info) == Success([
      "  19.0B  " + " " + "olssont" + " " + "3" + " " + ("2018-05-16" + " " + "big_cats"),
      "  11.0B  " + " " + "olssont" + " " + "2" + " " + ("2018-05-16" + " " + "toys"),
      "  30.0B  " + " " + "        " + "5"])
  {
    ScenarioReportShape();
    ScenarioBigCatsLine();
    ScenarioToysLine();
    ScenarioSummaryLine();
  }
}

=== FILE: staged_diff.dfy ===
/** The `diff` command: a staged comparison of a dataset against a reference
    dataset. Identifiers are compared first, sizes only when the identifiers
    agree, and content hashes only when sizes agree and a full comparison was
    asked for. The first stage that finds a difference decides the outcome
    and its exit code; later stages are never evaluated. */
module StagedDiff {
  import opened Manifests

  /** The per-stage value in a difference record: whether the item is
      present, its size, or its content hash. */
  datatype Value = Presence(present: bool) | Size(bytes: nat) | Hash(digest: string)

  /** One reported difference: the identifier, its value in the dataset and
      its value in the reference dataset. */
  datatype DiffRecord = DiffRecord(id: Id, inDataset: Value, inReference: Value)

  datatype Stage = IdentifierStage | SizeStage | ContentStage

  /** The terminal states of the comparison. */
  datatype Outcome = Identical | IdentifiersDiffer | SizesDiffer | ContentDiffers

  /** The process exit status for each outcome. */
  function ExitCode(o: Outcome): nat {
    match o
    case Identical => 0
    case IdentifiersDiffer => 1
    case SizesDiffer => 2
    case ContentDiffers => 3
  }

  /** The exit status tells the outcome apart: each outcome has its own code,
      and only an identical pair exits with 0. */
  lemma ExitCodeIdentifiesOutcome(o1: Outcome, o2: Outcome)
    ensures ExitCode(o1) <= 3
    ensures ExitCode(o1) == 0 <==> o1 == Identical
    ensures ExitCode(o1) == ExitCode(o2) ==> o1 == o2
  {
  }

  /** The three comparison primitives of the storage library, taken as
      parameters: each maps (dataset, reference) to its list of differences. */
  datatype Comparators = Comparators(
    identifiers: (Dataset, Dataset) -> seq<DiffRecord>,
    sizes: (Dataset, Dataset) -> seq<DiffRecord>,
    content: (Dataset, Dataset) -> seq<DiffRecord>)

  function Compare(cmp: Comparators, stage: Stage, ds: Dataset, ref: Dataset): seq<DiffRecord> {
    match stage
    case IdentifierStage => cmp.identifiers(ds, ref)
    case SizeStage => cmp.sizes(ds, ref)
    case ContentStage => cmp.content(ds, ref)
  }

  function Index(stage: Stage): nat {
    match stage
    case IdentifierStage => 0
    case SizeStage => 1
    case ContentStage => 2
  }

  /** A state of the comparison: about to run a stage, or finished. */
  datatype Phase = Comparing(stage: Stage) | Done(outcome: Outcome)

  /** The outcome when `stage` is the stage that found differences. */
  function DifferOutcome(stage: Stage): Outcome {
    match stage
    case IdentifierStage => IdentifiersDiffer
    case SizeStage => SizesDiffer
    case ContentStage => ContentDiffers
  }

  /** The transition rule: a stage that found differences ends the run with
      its own outcome; otherwise the next stage runs, where the content
      stage follows the size stage only for a full comparison. */
  function Transition(stage: Stage, found: seq<DiffRecord>, full: bool): (next: Phase)
    ensures next.Comparing? ==> |found| == 0 && Index(next.stage) == Index(stage) + 1
  {
    if |found| > 0 then Done(DifferOutcome(stage))
    else
      match stage
      case IdentifierStage => Comparing(SizeStage)
      case SizeStage => if full then Comparing(ContentStage) else Done(Identical)
      case ContentStage => Done(Identical)
  }

  /** The result of a comparison: the outcome, the differences reported for
      it, and the stages evaluated, in order. */
  datatype DiffRun = DiffRun(outcome: Outcome, reported: seq<DiffRecord>, evaluated: seq<Stage>)

  /** The stages of `r` run in order starting from `stage`, every stage but
      the last found nothing, and the last one's findings are the ones
      reported. */
  ghost predicate RunsInOrder(r: DiffRun, stage: Stage, ds: Dataset, ref: Dataset, cmp: Comparators) {
    && 0 < |r.evaluated| && r.evaluated[0] == stage
    && (forall i | 0 <= i < |r.evaluated| :: Index(r.evaluated[i]) == Index(stage) + i)
    && (forall i | 0 <= i < |r.evaluated| - 1 :: |Compare(cmp, r.evaluated[i], ds, ref)| == 0)
    && r.reported == Compare(cmp, r.evaluated[|r.evaluated| - 1], ds, ref)
  }

  /** Runs the state machine from `stage` until it reaches a terminal state. */
  function Run(stage: Stage, ds: Dataset, ref: Dataset, full: bool, cmp: Comparators): (r: DiffRun)
    ensures RunsInOrder(r, stage, ds, ref, cmp)
    ensures r.outcome == Identical <==> |r.reported| == 0
    decreases 2 - Index(stage)
  {
    var found := Compare(cmp, stage, ds, ref);
    match Transition(stage, found, full)
    case Done(o) => DiffRun(o, found, [stage])
    case Comparing(next) =>
      var rest := Run(next, ds, ref, full, cmp);
      rest.(evaluated := [stage] + rest.evaluated)
  }

  /** `diff dataset reference [--full]`. */
  function Diff(ds: Dataset, ref: Dataset, full: bool, cmp: Comparators): (run: DiffRun)
    // A difference in identifiers ends the comparison at once.
    ensures |cmp.identifiers(ds, ref)| > 0 ==>
      run == DiffRun(IdentifiersDiffer, cmp.identifiers(ds, ref), [IdentifierStage])
    // A difference in sizes ends it before any content is compared.
    ensures |cmp.identifiers(ds, ref)| == 0 && |cmp.sizes(ds, ref)| > 0 ==>
      run == DiffRun(SizesDiffer, cmp.sizes(ds, ref), [IdentifierStage, SizeStage])
    // Without --full the content is never compared.
    ensures !full ==> ContentStage !in run.evaluated
    ensures run.outcome == ContentDiffers <==>
      full && |cmp.identifiers(ds, ref)| == 0 && |cmp.sizes(ds, ref)| == 0 && |cmp.content(ds, ref)| > 0
    ensures run.outcome == ContentDiffers ==> run.reported == cmp.content(ds, ref)
    ensures run.outcome == Identical <==>
      |cmp.identifiers(ds, ref)| == 0 && |cmp.sizes(ds, ref)| == 0 && (full ==> |cmp.content(ds, ref)| == 0)
    // Differences are reported exactly when the exit status is non-zero.
    ensures |run.reported| == 0 <==> ExitCode(run.outcome) == 0
    // Stages run in order, each only after the previous one found nothing.
    ensures run.evaluated <= [IdentifierStage, SizeStage, ContentStage]
    ensures RunsInOrder(run, IdentifierStage, ds, ref, cmp)
    // A run that reports nothing went through every stage it was asked for.
    ensures |run.reported| == 0 ==>
      run.evaluated == if full then [IdentifierStage, SizeStage, ContentStage] else [IdentifierStage, SizeStage]
  {
    Run(IdentifierStage, ds, ref, full, cmp)
  }

  // ---------------------------------------------------------------------
  // Reference comparators, following what the command's documentation
  // says each stage checks. Item content is hashed outside the model:
  // `rehash(id)` is the hash of the dataset's item `id` computed with the
  // reference dataset's hashing algorithm.
  // ---------------------------------------------------------------------

  /** A record of the identifier stage: an identifier present on one side only. */
  ghost predicate IdentifierRecord(a: Dataset, b: Dataset, d: DiffRecord) {
    || (d.id in a.identifiers && d.id !in b.identifiers
        && d.inDataset == Presence(true) && d.inReference == Presence(false))
    || (d.id !in a.identifiers && d.id in b.identifiers
        && d.inDataset == Presence(false) && d.inReference == Presence(true))
  }

  /** A record of the size stage: a shared item whose sizes disagree. */
  ghost predicate SizeRecord(a: Dataset, b: Dataset, d: DiffRecord) {
    && d.id in a.identifiers && d.id in a.manifest && d.id in b.manifest
    && a.manifest[d.id].sizeInBytes != b.manifest[d.id].sizeInBytes
    && d.inDataset == Size(a.manifest[d.id].sizeInBytes)
    && d.inReference == Size(b.manifest[d.id].sizeInBytes)
  }

  /** A record of the content stage: a shared item whose recomputed hash
      disagrees with the reference's recorded hash. */
  ghost predicate ContentRecord(a: Dataset, ref: Dataset, rehash: Id -> string, d: DiffRecord) {
    && d.id in a.identifiers && d.id in ref.manifest
    && rehash(d.id) != ref.manifest[d.id].hash
    && d.inDataset == Hash(rehash(d.id))
    && d.inReference == Hash(ref.manifest[d.id].hash)
  }

  /** The identifiers of `xs` that `others` lacks, flagged as present on the
      side `inFirst` names. */
  function OnlyIn(xs: seq<Id>, others: seq<Id>, inFirst: bool): (r: seq<DiffRecord>)
    ensures forall d | d in r ::
      d.id in xs && d.id !in others && d.inDataset == Presence(inFirst) && d.inReference == Presence(!inFirst)
    ensures forall id | id in xs && id !in others ::
      DiffRecord(id, Presence(inFirst), Presence(!inFirst)) in r
    ensures |r| == 0 <==> forall id | id in xs :: id in others
  {
    if |xs| == 0 then []
    else
      var rest := OnlyIn(xs[1..], others, inFirst);
      if xs[0] in others then rest
      else [DiffRecord(xs[0], Presence(inFirst), Presence(!inFirst))] + rest
  }

  /** Identifiers present in one dataset and not the other. */
  function DiffIdentifiers(a: Dataset, b: Dataset): (r: seq<DiffRecord>)
    ensures forall d :: d in r <==> IdentifierRecord(a, b, d)
    ensures |r| == 0 <==> forall id :: id in a.identifiers <==> id in b.identifiers
  {
    var r := OnlyIn(a.identifiers, b.identifiers, true) + OnlyIn(b.identifiers, a.identifiers, false);
    assert forall id :: id in a.identifiers && id !in b.identifiers ==>
      DiffRecord(id, Presence(true), Presence(false)) in r;
    assert forall id :: id in b.identifiers && id !in a.identifiers ==>
      DiffRecord(id, Presence(false), Presence(true)) in r;
    r
  }

  function SizesOver(ids: seq<Id>, a: Dataset, b: Dataset): (r: seq<DiffRecord>)
    requires forall id | id in ids :: id in a.identifiers
    ensures forall d :: d in r <==> d.id in ids && SizeRecord(a, b, d)
    ensures |r| == 0 <==> forall id | id in ids && id in a.manifest && id in b.manifest ::
      a.manifest[id].sizeInBytes == b.manifest[id].sizeInBytes
  {
    if |ids| == 0 then []
    else
      var id := ids[0];
      var rest := SizesOver(ids[1..], a, b);
      if id in a.manifest && id in b.manifest
         && a.manifest[id].sizeInBytes != b.manifest[id].sizeInBytes
      then [DiffRecord(id, Size(a.manifest[id].sizeInBytes), Size(b.manifest[id].sizeInBytes))] + rest
      else rest
  }

  /** Shared items whose sizes differ, in the dataset's enumeration order. */
  function DiffSizes(a: Dataset, b: Dataset): (r: seq<DiffRecord>)
    ensures forall d :: d in r <==> SizeRecord(a, b, d)
    ensures |r| == 0 <==> forall id | id in a.identifiers && id in a.manifest && id in b.manifest ::
      a.manifest[id].sizeInBytes == b.manifest[id].sizeInBytes
  {
    SizesOver(a.identifiers, a, b)
  }

  function ContentOver(ids: seq<Id>, a: Dataset, ref: Dataset, rehash: Id -> string): (r: seq<DiffRecord>)
    requires forall id | id in ids :: id in a.identifiers
    ensures forall d :: d in r <==> d.id in ids && ContentRecord(a, ref, rehash, d)
    ensures |r| == 0 <==> forall id | id in ids && id in ref.manifest :: rehash(id) == ref.manifest[id].hash
  {
    if |ids| == 0 then []
    else
      var id := ids[0];
      var rest := ContentOver(ids[1..], a, ref, rehash);
      if id in ref.manifest && rehash(id) != ref.manifest[id].hash
      then [DiffRecord(id, Hash(rehash(id)), Hash(ref.manifest[id].hash))] + rest
      else rest
  }

  /** Shared items whose content, hashed with the reference's algorithm,
      differs from the reference's recorded hash. */
  function DiffContent(a: Dataset, ref: Dataset, rehash: Id -> string): (r: seq<DiffRecord>)
    ensures forall d :: d in r <==> ContentRecord(a, ref, rehash, d)
    ensures |r| == 0 <==> forall id | id in a.identifiers && id in ref.manifest ::
      rehash(id) == ref.manifest[id].hash
  {
    ContentOver(a.identifiers, a, ref, rehash)
  }

  function StandardComparators(rehash: Id -> string): Comparators {
    Comparators(
      (a, b) => DiffIdentifiers(a, b),
      (a, b) => DiffSizes(a, b),
      (a, b) => DiffContent(a, b, rehash))
  }

  /** A dataset compared with itself is identical, even with --full, as long
      as rehashing its items reproduces their recorded hashes. */
  lemma DiffIsReflexive(d: Dataset, full: bool, rehash: Id -> string)
    requires Enumerates(d.identifiers, d.manifest)
    requires forall id | id in d.identifiers :: rehash(id) == d.manifest[id].hash
    ensures Diff(d, d, full, StandardComparators(rehash)).outcome == Identical
  {
    var cmp := StandardComparators(rehash);
    assert |cmp.identifiers(d, d)| == 0;
    assert |cmp.sizes(d, d)| == 0;
    assert |cmp.content(d, d)| == 0;
  }

  /** Two datasets that list the same identifiers, in any order. */
  ghost predicate SameListing(a: Dataset, a': Dataset) {
    && a.manifest == a'.manifest
    && forall id :: id in a.identifiers <==> id in a'.identifiers
  }

  lemma SameRecordsSameEmptiness(r: seq<DiffRecord>, r': seq<DiffRecord>)
    requires forall d :: d in r <==> d in r'
    ensures |r| == 0 <==> |r'| == 0
  {
    if |r| > 0 {
      assert r[0] in r';
    }
    if |r'| > 0 {
      assert r'[0] in r;
    }
  }

  /** Every standard comparator finds the same differences, whatever the
      order in which the two datasets enumerate their identifiers. */
  lemma SameListingSameRecords(a: Dataset, a': Dataset, b: Dataset, b': Dataset, rehash: Id -> string)
    requires SameListing(a, a') && SameListing(b, b')
    ensures var cmp := StandardComparators(rehash);
      && (forall d :: d in cmp.identifiers(a, b) <==> d in cmp.identifiers(a', b'))
      && (forall d :: d in cmp.sizes(a, b) <==> d in cmp.sizes(a', b'))
      && (forall d :: d in cmp.content(a, b) <==> d in cmp.content(a', b'))
  {
    var cmp := StandardComparators(rehash);
    assert forall d :: d in cmp.identifiers(a, b) <==> d in cmp.identifiers(a', b') by {
      forall d ensures IdentifierRecord(a, b, d) <==> IdentifierRecord(a', b', d) { }
    }
    assert forall d :: d in cmp.sizes(a, b) <==> d in cmp.sizes(a', b') by {
      forall d ensures SizeRecord(a, b, d) <==> SizeRecord(a', b', d) { }
    }
    assert forall d :: d in cmp.content(a, b) <==> d in cmp.content(a', b') by {
      forall d ensures ContentRecord(a, b, rehash, d) <==> ContentRecord(a', b', rehash, d) { }
    }
  }

  /** Re-enumerating either dataset in another order changes neither the
      outcome nor the set of differences reported. */
  lemma {:induction false} DiffIgnoresEnumerationOrder(
    a: Dataset, a': Dataset, b: Dataset, b': Dataset, full: bool, rehash: Id -> string)
    requires SameListing(a, a') && SameListing(b, b')
    ensures Diff(a, b, full, StandardComparators(rehash)).outcome
         == Diff(a', b', full, StandardComparators(rehash)).outcome
    ensures forall d :: d in Diff(a, b, full, StandardComparators(rehash)).reported
                   <==> d in Diff(a', b', full, StandardComparators(rehash)).reported
  {
    var cmp := StandardComparators(rehash);
    SameListingSameRecords(a, a', b, b', rehash);
    SameRecordsSameEmptiness(cmp.identifiers(a, b), cmp.identifiers(a', b'));
    SameRecordsSameEmptiness(cmp.sizes(a, b), cmp.sizes(a', b'));
    SameRecordsSameEmptiness(cmp.content(a, b), cmp.content(a', b'));
  }
}

=== FILE: summary.dfy ===
/** The `summary` command: a dataset's identity, its creator, how many items
    it holds and how many bytes they occupy. */
module DatasetSummary {
  import opened Wrappers
  import opened Manifests

  datatype Summary = Summary(
    name: string,
    uuid: string,
    creatorUsername: string,
    numberOfItems: nat,
    sizeInBytes: nat,
    frozenAt: string)

  /** The summary of a dataset: the item count is the length of the
      identifier enumeration and the size is the sum of the item sizes, which
      fails if an enumerated identifier has no recorded properties. */
  function Summarize(ds: Dataset): (r: Result<Summary, Error>)
    ensures r.Success? <==> forall id | id in ds.identifiers :: id in ds.manifest
    ensures r.Success? ==>
      && r.value.name == ds.admin.name
      && r.value.uuid == ds.admin.uuid
      && r.value.creatorUsername == ds.admin.creatorUsername
      && r.value.frozenAt == ds.admin.frozenAt
      && r.value.numberOfItems == |ds.identifiers|
  {
    var total :- SizeSum(ds.identifiers, ds.manifest);
    Success(Summary(ds.admin.name, ds.admin.uuid, ds.admin.creatorUsername,
                    |ds.identifiers|, total, ds.admin.frozenAt))
  }

  /** For a dataset whose identifiers enumerate its manifest, the summary
      exists, counts every manifest entry once, and reports the total size of
      all items. */
  lemma SummaryOfConsistentDataset(ds: Dataset)
    requires Enumerates(ds.identifiers, ds.manifest)
    ensures Summarize(ds).Success?
    ensures Summarize(ds).value.numberOfItems == |ds.manifest|
    ensures Summarize(ds).value.sizeInBytes == ManifestSize(ds.manifest)
  {
    ConsistentDatasetTotals(ds.identifiers, ds.manifest);
  }
}

=== FILE: text_format.dfy ===
/** The width field of Python's `str.format`: `{x:w}` pads a string on the
    right and a number on the left to at least `w` characters and never
    truncates. */
module TextFormat {

  function Spaces(n: nat): (s: string)
    ensures |s| == n
  {
    seq(n, _ => ' ')
  }

  function Max(a: nat, b: nat): nat {
    if a < b then b else a
  }

  /** `{s:width}` for a string: left-aligned. */
  function PadRight(s: string, width: nat): (r: string)
    ensures |r| == Max(|s|, width)
    ensures r[..|s|] == s
  {
    if |s| < width then s + Spaces(width - |s|) else s
  }

  /** `{n:width}` for a number already written out: right-aligned. */
  function PadLeft(s: string, width: nat): (r: string)
    ensures |r| == Max(|s|, width)
    ensures r[|r| - |s|..] == s
  {
    if |s| < width then Spaces(width - |s|) + s else s
  }

  /** Only spaces are added: after the string when padding on the right,
      before it when padding on the left. */
  lemma PaddingIsSpaces(s: string, width: nat)
    ensures forall i | |s| <= i < |PadRight(s, width)| :: PadRight(s, width)[i] == ' '
    ensures forall i | 0 <= i < |PadLeft(s, width)| - |s| :: PadLeft(s, width)[i] == ' '
  {
  }
}

=== FILE: verification.dfy ===
/** The `verify` command: a dataset's persisted manifest checked against a
    manifest regenerated from its storage. Items only in the regenerated
    manifest are unknown, items only in the persisted one are missing, and,
    for a full check, shared items whose hashes differ are altered. Sizes are
    not compared. */
module Verification {
  import opened Manifests

  /** The identifiers `verify` reports, by category. */
  datatype Findings = Findings(unknown: set<Id>, missing: set<Id>, altered: set<Id>)

  /** What `verify` finds, as set algebra over the two manifests. */
  function Classify(persisted: Manifest, generated: Manifest, full: bool): (f: Findings)
    // Every identifier in exactly one manifest is unknown or missing, never both.
    ensures f.unknown !! f.missing
    ensures f.unknown + f.missing == (persisted.Keys - generated.Keys) + (generated.Keys - persisted.Keys)
    // Only identifiers in both manifests can be altered, and only in a full check.
    ensures f.altered <= persisted.Keys * generated.Keys
    ensures !full ==> f.altered == {}
  {
    Findings(
      generated.Keys - persisted.Keys,
      persisted.Keys - generated.Keys,
      if full then
        set id | id in persisted && id in generated && persisted[id].hash != generated[id].hash
      else {})
  }

  predicate Passes(f: Findings) {
    f.unknown == {} && f.missing == {} && f.altered == {}
  }

  /** No item falls in two categories: an altered item is neither unknown
      nor missing. */
  lemma FindingsPartition(persisted: Manifest, generated: Manifest, full: bool)
    ensures var f := Classify(persisted, generated, full);
      f.altered !! f.unknown && f.altered !! f.missing
  {
  }

  /** With a full check, a shared item is altered exactly when its two hashes
      differ; without one, nothing is ever altered. */
  lemma AlteredIffHashDiffers(persisted: Manifest, generated: Manifest, full: bool, id: Id)
    requires id in persisted && id in generated
    ensures id in Classify(persisted, generated, full).altered <==>
      full && persisted[id].hash != generated[id].hash
  {
  }

  /** The unknown and missing items do not depend on `full`, and a full check
      fails whenever a quick one does. */
  lemma FullCheckIsStricter(persisted: Manifest, generated: Manifest)
    ensures Classify(persisted, generated, false).unknown == Classify(persisted, generated, true).unknown
    ensures Classify(persisted, generated, false).missing == Classify(persisted, generated, true).missing
    ensures Classify(persisted, generated, false).altered == {}
    ensures !Passes(Classify(persisted, generated, false)) ==> !Passes(Classify(persisted, generated, true))
  {
  }

  /** A line `verify` prints: the category, the identifier and its relative path. */
  datatype Message = Unknown(id: Id, relpath: string) | Missing(id: Id, relpath: string) | Altered(id: Id, relpath: string)

  /** The printed messages, and whether the check ended with "All good". */
  datatype VerifyReport = VerifyReport(messages: seq<Message>, allOkay: bool)

  function ExitCode(r: VerifyReport): nat {
    if r.allOkay then 0 else 1
  }

  function Rank(m: Message): nat {
    match m
    case Unknown(_, _) => 0
    case Missing(_, _) => 1
    case Altered(_, _) => 2
  }

  ghost function UnknownIds(ms: seq<Message>): set<Id> {
    set m | m in ms && m.Unknown? :: m.id
  }

  ghost function MissingIds(ms: seq<Message>): set<Id> {
    set m | m in ms && m.Missing? :: m.id
  }

  ghost function AlteredIds(ms: seq<Message>): set<Id> {
    set m | m in ms && m.Altered? :: m.id
  }

  /** Appending a message adds its identifier to its own category only. */
  lemma IdsAppend(ms: seq<Message>, m: Message)
    ensures UnknownIds(ms + [m]) == UnknownIds(ms) + (if m.Unknown? then {m.id} else {})
    ensures MissingIds(ms + [m]) == MissingIds(ms) + (if m.Missing? then {m.id} else {})
    ensures AlteredIds(ms + [m]) == AlteredIds(ms) + (if m.Altered? then {m.id} else {})
  {
    assert forall x :: x in ms + [m] <==> x in ms || x == m;
  }

  /** No messages exactly when no category holds an identifier. */
  lemma NoMessagesIffNoIds(ms: seq<Message>)
    ensures |ms| == 0 <==> UnknownIds(ms) == {} && MissingIds(ms) == {} && AlteredIds(ms) == {}
  {
    if |ms| > 0 {
      assert ms[0].id in UnknownIds(ms) + MissingIds(ms) + AlteredIds(ms);
    }
  }

  /** Each message carries the relative path the source looks up: unknown
      items from the regenerated manifest, the others from the persisted one. */
  ghost predicate RelpathsFrom(ms: seq<Message>, persisted: Manifest, generated: Manifest) {
    forall m | m in ms ::
      match m
      case Unknown(id, p) => id in generated && p == generated[id].relpath
      case Missing(id, p) => id in persisted && p == persisted[id].relpath
      case Altered(id, p) => id in persisted && p == persisted[id].relpath
  }

  ghost predicate NoRepeats(ms: seq<Message>) {
    forall i, j | 0 <= i < j < |ms| :: ms[i] != ms[j]
  }

  /** Unknown items are printed first, then missing, then altered ones. */
  ghost predicate GroupedByCategory(ms: seq<Message>) {
    forall i, j | 0 <= i < j < |ms| :: Rank(ms[i]) <= Rank(ms[j])
  }

  ghost predicate AllOfRank(ms: seq<Message>, rank: nat) {
    forall m | m in ms :: Rank(m) == rank
  }

  /** The category sets of a concatenation are the unions of the parts'. */
  lemma IdsConcat(a: seq<Message>, b: seq<Message>)
    ensures UnknownIds(a + b) == UnknownIds(a) + UnknownIds(b)
    ensures MissingIds(a + b) == MissingIds(a) + MissingIds(b)
    ensures AlteredIds(a + b) == AlteredIds(a) + AlteredIds(b)
  {
    assert forall x :: x in a + b <==> x in a || x in b;
  }

  /** A block of one category contributes identifiers to that category only. */
  lemma RankedIds(ms: seq<Message>, rank: nat)
    requires AllOfRank(ms, rank)
    ensures rank != 0 ==> UnknownIds(ms) == {}
    ensures rank != 1 ==> MissingIds(ms) == {}
    ensures rank != 2 ==> AlteredIds(ms) == {}
  {
  }

  lemma RelpathsConcat(a: seq<Message>, b: seq<Message>, persisted: Manifest, generated: Manifest)
    requires RelpathsFrom(a, persisted, generated) && RelpathsFrom(b, persisted, generated)
    ensures RelpathsFrom(a + b, persisted, generated)
  {
    assert forall x :: x in a + b ==> x in a || x in b;
  }

  /** Joining a block of lower-ranked messages to a block of higher-ranked
      ones keeps them grouped and free of repeats. */
  lemma ConcatBlocks(a: seq<Message>, ra: nat, b: seq<Message>, rb: nat)
    requires GroupedByCategory(a) && NoRepeats(a)
    requires AllOfRank(b, rb) && NoRepeats(b)
    requires forall m | m in a :: Rank(m) <= ra
    requires ra < rb
    ensures GroupedByCategory(a + b) && NoRepeats(a + b)
  {
    var c := a + b;
    forall i, j | 0 <= i < j < |c|
      ensures Rank(c[i]) <= Rank(c[j]) && c[i] != c[j]
    {
      if j < |a| {
      } else if i < |a| {
        assert c[i] in a && c[j] in b;
      } else {
        assert c[i] == b[i - |a|] && c[j] == b[j - |a|];
      }
    }
  }

  /** The "Unknown item" lines: one per identifier only the regenerated
      manifest holds. */
  method ReportUnknown(persisted: Manifest, generated: Manifest) returns (ms: seq<Message>)
    ensures AllOfRank(ms, 0)
    ensures UnknownIds(ms) == generated.Keys - persisted.Keys
    ensures RelpathsFrom(ms, persisted, generated)
    ensures NoRepeats(ms)
  {
    ms := [];
    var todo := generated.Keys - persisted.Keys;
    while todo != {}
      invariant todo <= generated.Keys - persisted.Keys
      invariant forall m | m in ms :: m.Unknown? && m.id !in todo
      invariant UnknownIds(ms) == (generated.Keys - persisted.Keys) - todo
      invariant RelpathsFrom(ms, persisted, generated)
      invariant NoRepeats(ms)
      decreases todo
    {
      var id :| id in todo;
      IdsAppend(ms, Unknown(id, generated[id].relpath));
      ms := ms + [Unknown(id, generated[id].relpath)];
      todo := todo - {id};
    }
  }

  /** The "Missing item" lines: one per identifier only the persisted
      manifest holds. */
  method ReportMissing(persisted: Manifest, generated: Manifest) returns (ms: seq<Message>)
    ensures AllOfRank(ms, 1)
    ensures MissingIds(ms) == persisted.Keys - generated.Keys
    ensures RelpathsFrom(ms, persisted, generated)
    ensures NoRepeats(ms)
  {
    ms := [];
    var todo := persisted.Keys - generated.Keys;
    while todo != {}
      invariant todo <= persisted.Keys - generated.Keys
      invariant forall m | m in ms :: m.Missing? && m.id !in todo
      invariant MissingIds(ms) == (persisted.Keys - generated.Keys) - todo
      invariant RelpathsFrom(ms, persisted, generated)
      invariant NoRepeats(ms)
      decreases todo
    {
      var id :| id in todo;
      IdsAppend(ms, Missing(id, persisted[id].relpath));
      ms := ms + [Missing(id, persisted[id].relpath)];
      todo := todo - {id};
    }
  }

  /** The "Altered item" lines of a full check: one per shared identifier
      whose two hashes differ. */
  method ReportAltered(persisted: Manifest, generated: Manifest) returns (ms: seq<Message>)
    ensures AllOfRank(ms, 2)
    ensures AlteredIds(ms) == Classify(persisted, generated, true).altered
    ensures RelpathsFrom(ms, persisted, generated)
    ensures NoRepeats(ms)
  {
    ms := [];
    var shared := persisted.Keys * generated.Keys;
    var todo := shared;
    while todo != {}
      invariant todo <= shared
      invariant forall m | m in ms :: m.Altered? && m.id !in todo
      invariant AlteredIds(ms) ==
        set id | id in shared - todo && persisted[id].hash != generated[id].hash
      invariant RelpathsFrom(ms, persisted, generated)
      invariant NoRepeats(ms)
      decreases todo
    {
      var id :| id in todo;
      if generated[id].hash != persisted[id].hash {
        IdsAppend(ms, Altered(id, persisted[id].relpath));
        ms := ms + [Altered(id, persisted[id].relpath)];
      }
      todo := todo - {id};
    }
  }

  /** The three blocks of messages, printed one after the other, report
      exactly the findings of `Classify`. */
  lemma BlocksReportFindings(
    unknown: seq<Message>, missing: seq<Message>, altered: seq<Message>,
    persisted: Manifest, generated: Manifest, full: bool)
    requires AllOfRank(unknown, 0) && UnknownIds(unknown) == generated.Keys - persisted.Keys
    requires AllOfRank(missing, 1) && MissingIds(missing) == persisted.Keys - generated.Keys
    requires AllOfRank(altered, 2) && AlteredIds(altered) == Classify(persisted, generated, full).altered
    ensures UnknownIds(unknown + missing + altered) == Classify(persisted, generated, full).unknown
    ensures MissingIds(unknown + missing + altered) == Classify(persisted, generated, full).missing
    ensures AlteredIds(unknown + missing + altered) == Classify(persisted, generated, full).altered
  {
    IdsConcat(unknown, missing);
    IdsConcat(unknown + missing, altered);
    RankedIds(unknown, 0);
    RankedIds(missing, 1);
    RankedIds(altered, 2);
  }

  /** The three blocks are all empty exactly when the dataset passes. */
  lemma BlocksEmptyIffPasses(
    unknown: seq<Message>, missing: seq<Message>, altered: seq<Message>,
    persisted: Manifest, generated: Manifest, full: bool)
    requires AllOfRank(unknown, 0) && UnknownIds(unknown) == generated.Keys - persisted.Keys
    requires AllOfRank(missing, 1) && MissingIds(missing) == persisted.Keys - generated.Keys
    requires AllOfRank(altered, 2) && AlteredIds(altered) == Classify(persisted, generated, full).altered
    ensures (|unknown| == 0 && |missing| == 0 && |altered| == 0) <==> Passes(Classify(persisted, generated, full))
  {
    NoMessagesIffNoIds(unknown);
    NoMessagesIffNoIds(missing);
    NoMessagesIffNoIds(altered);
  }

  /** The three blocks, printed one after the other, stay grouped by
      category, free of repeats and carry the right relative paths. */
  lemma BlocksWellFormed(
    unknown: seq<Message>, missing: seq<Message>, altered: seq<Message>,
    persisted: Manifest, generated: Manifest)
    requires AllOfRank(unknown, 0) && NoRepeats(unknown) && RelpathsFrom(unknown, persisted, generated)
    requires AllOfRank(missing, 1) && NoRepeats(missing) && RelpathsFrom(missing, persisted, generated)
    requires AllOfRank(altered, 2) && NoRepeats(altered) && RelpathsFrom(altered, persisted, generated)
    ensures GroupedByCategory(unknown + missing + altered)
    ensures NoRepeats(unknown + missing + altered)
    ensures RelpathsFrom(unknown + missing + altered, persisted, generated)
  {
    ConcatBlocks(unknown, 0, missing, 1);
    ConcatBlocks(unknown + missing, 1, altered, 2);
    RelpathsConcat(unknown, missing, persisted, generated);
    RelpathsConcat(unknown + missing, altered, persisted, generated);
  }

  /** `verify dataset [--full]`. Sets are iterated in an unspecified order, so
      every choice of order is covered. */
  method Verify(persisted: Manifest, generated: Manifest, full: bool) returns (report: VerifyReport)
    ensures UnknownIds(report.messages) == Classify(persisted, generated, full).unknown
    ensures MissingIds(report.messages) == Classify(persisted, generated, full).missing
    ensures AlteredIds(report.messages) == Classify(persisted, generated, full).altered
    ensures RelpathsFrom(report.messages, persisted, generated)
    ensures NoRepeats(report.messages)
    ensures GroupedByCategory(report.messages)
    ensures report.allOkay <==> Passes(Classify(persisted, generated, full))
    ensures report.allOkay <==> |report.messages| == 0
    ensures ExitCode(report) == 0 <==> Passes(Classify(persisted, generated, full))
  {
    var unknown := ReportUnknown(persisted, generated);
    var missing := ReportMissing(persisted, generated);
    var altered: seq<Message> := [];
    if full {
      altered := ReportAltered(persisted, generated);
    }
    var allOkay := |unknown| == 0 && |missing| == 0 && |altered| == 0;
    BlocksReportFindings(unknown, missing, altered, persisted, generated, full);
    BlocksEmptyIffPasses(unknown, missing, altered, persisted, generated, full);
    BlocksWellFormed(unknown, missing, altered, persisted, generated);
    report := VerifyReport(unknown + missing + altered, allOkay);
  }
}

=== FILE: wrappers.dfy ===
/** Failure-carrying results: the model's stand-in for the exceptions the
    dataset tools raise (a missing item, `max` of an empty list). */
module Wrappers {

  datatype Result<+T, +E> = Success(value: T) | Failure(error: E) {

    predicate IsFailure() {
      Failure?
    }

    function PropagateFailure<U>(): Result<U, E>
      requires Failure?
    {
      Failure(error)
    }

    function Extract(): T
      requires Success?
    {
      value
    }
  }
}
